=== FILE: README.md ===
# RuleJIT2 runtime core in Dafny

This project models the runtime core of RuleJIT2, a small language toolchain
written in C++.

**Generational collector (`src/gc/mem.hpp`).** Object headers are 8 bytes,
with flags, an age or a colour, a compressed size and a pointer mask for the
first eight payload words (`src/defs.hpp`). Pages are 4096 bytes, and each is
tagged in a page table as nursery (`Minor`), elder (`Major`), `Static` or
`Huge`. Huge objects are kept in a table ordered by base address. The
collector's parts are:
- **Write barrier.** It records old-to-young stores in a card table.
- **Read barrier.** During a minor collection it follows and heals forwarding
  words.
- **Minor collection.** Each step takes one slot from the mark queue or the
  card table. It then either evacuates the young object the slot points to,
  or heals the slot. An evacuated object's pointer members are queued.
  Repeated steps finish. Each step that takes a slot lowers a bound: the
  pending slots plus nine per object still to evacuate. The factor is nine
  because an evacuation can queue up to eight pointer slots of the copy.

**Earlier, non-moving memory manager (`src/vm/mem.hpp`).** Its region lookup
and write barrier differ from the collector's.

**Lexer (`src/frontend/lexer/lexer.hpp`).** A memoising lexer. It skips
blanks and `//` comments, then reads one token: a symbol run, an identifier,
a number, a character literal, a string, or a piece of a template string.
Results are cached under a key that combines the start index with the
guidance.

**Type table (`src/ir/type.hpp`).** The table that memoises array and tuple
types.

**Small tools (`src/tools/`).**
- A string interning pool.
- A chunked object pool and the singly linked list whose nodes live in it.
- A fixed-capacity vector.
- A per-thread stack of contexts.

**How the model represents these.**
- **Machine addresses** are natural numbers. The collector's heap is a map
  from word addresses to words, with 0 as the null pointer, plus a map from
  object pointers to their headers (the header sits in the word before the
  object). Every heap word holds a pointer: null or an object's base.
- **Objects whose fields the source updates in place** are classes:
  - the collector's and the variant's `Memory`, and the collector's `Page`;
  - `LexerContext`, `StringPool`, `TypeManager`, `ObjectPool`, `PooledList`,
    `inplace_vector` and the context provider.
- **Their operations** are methods proved against specification functions:
  - `Evacuate`, `ReadBarrier`, `RecordStore` and `TakeSlot` for the collector;
  - `Lex` and `Expand` for the lexer;
  - `FindCached` for the type table.

  The properties the system promises are stated about those functions.
- **Type metadata** (object sizes of big objects, header prototypes) comes
  from the type manager. It is a function parameter (`objSize`,
  `headerPrototype`).

Where a comment and the code disagree, the model follows the code.
- The comment on `kReal` (`src/frontend/lexer/lexer.hpp:54`) lists `3e8` and
  `0.0` as reals. The number branch (`src/frontend/lexer/lexer.hpp:151-177`)
  returns `kInt` for both, and `Lexer.NumberExamples` states the code's
  answer.
- The lifecycle comment (`src/gc/mem.hpp:76-110`) describes moving from
  `Normal` to `MinorGC`, but no code ever changes `stage`. The model adds
  that one transition as `GcMemory.Memory.BeginMinorGc`, so that the
  minor-collection paths are reachable.

## Model

| member | source | states |
|---|---|---|
| ObjectHeader.FlagBitsAreDistinctSingleBits | src/defs.hpp:73-80 | each flag is a single bit and different flags have different bits, so flags can be tested and set independently |
| ObjectHeader.FlagBit | src/defs.hpp:73-80 | the value of each enumerator: `kHasPointerMember` 1, `kHasFinalizer` 2, `kHasNativeScanner` 4, `kIsMoved` 8, `kIsMinorObject` 16 |
| ObjectHeader.HasFlag | src/defs.hpp:81-83 | `hasFlag`: the flag's bit is set in the header's flag byte |
| ObjectHeader.IsBigObject | src/defs.hpp:68-70 | `isBigObject`: `sizeCompressed` is the sentinel `u8(-1)`, 255 |
| ObjectHeader.AddFlag | src/defs.hpp:84-86 | corrected `addFlag`: afterwards the flag is set, every other flag and every other header field is unchanged |
| ObjectHeader.AddFlagAsWritten | src/defs.hpp:84-86 | `addFlag` as written (`flag &= f`): the flag is set afterwards only if it was set before, and every other flag is cleared |
| ObjectHeader.AddFlagAsWrittenCannotSet | src/defs.hpp:84-86 | on a header with no flags, `addFlag` as written leaves the flag unset, while the corrected one sets it |
| ObjectHeader.RemoveFlag | src/defs.hpp:87-89 | afterwards the flag is clear; every other flag and every other field is unchanged |
| ObjectHeader.SetColor | src/defs.hpp:58-66 | on an elder header (the assertion), stores the colour's value 0, 1 or 2 in `ageOrColor`, white exactly when 0 and black exactly when 2, and changes nothing else |
| ObjectHeader.GetPrototype | src/defs.hpp:49-56 | the copy has age 0, neither the minor nor the moved flag, the other flags of the original, and the same type, size and pointer mask; its flag byte is the original's with exactly those two bits cleared |
| HeapLayout.PageId | src/gc/mem.hpp:69-72 | corrected `getPageId`: the page-aligned base of the page holding the address, at most the address and less than one page below it |
| HeapLayout.PageIdAsWritten | src/gc/mem.hpp:69-72 | `getPageId` as written masks with `!(PageSize - 1)`, which is 0, so every address gets page id 0 |
| HeapLayout.PageIdAsWrittenCollapsesPages | src/vm/mem.hpp:162-165 | two addresses a page apart have different page ids, but as written they get the same one |
| HeapLayout.SizeBytes | src/gc/mem.hpp:299-304 | `getSize`: a big object's size comes from the type metadata; any other size is a whole number of 8-byte words and below one page |
| HeapLayout.CopyCountAsWritten | src/gc/mem.hpp:358-361 | the number of words `moveMinor`'s loop copies as written: `getSize(h)`, a byte count |
| HeapLayout.CopyCountAsWrittenOverruns | src/gc/mem.hpp:358-361 | as written, `moveMinor` copies `getSize(h)` words, which is 8 times the object's word count, so it copies past the payload of any non-empty small object |
| HeapLayout.MaskIndicesBelow | src/gc/mem.hpp:416-420 | the mask positions below `n` whose bit is set, each exactly once, in increasing order |
| HeapLayout.PointerIndices | src/gc/mem.hpp:409-420 | the payload positions `i < 8` passed to the callback: exactly those whose mask bit is set, when the header has `kHasPointerMember`; none otherwise; in increasing order |
| HeapLayout.PointerMembers | src/gc/mem.hpp:409-420 | the slot addresses passed to the callback for an object, one per reported position, at `objPtr + i`, in increasing order |
| HeapLayout.HugeFloor | src/gc/mem.hpp:315-321 | `lower_bound` on the descending huge table: the largest huge base not above the address, or none when every base lies above it |
| HeapLayout.IsMinorPage | src/gc/mem.hpp:325-331 | `isMemTypeMinor`: the address's page is mapped and tagged `Minor` |
| HeapLayout.LookupRegion | src/gc/mem.hpp:311-324 | `getMemType`: the page table's entry when the page is mapped; otherwise `Huge` exactly when the address lies inside the huge object found by `lower_bound`; otherwise the assertion fails (`None`) |
| HeapLayout.MinorPageIffLookupMinor | src/gc/mem.hpp:325-331 | `isMemTypeMinor` holds exactly when `getMemType` answers `Minor`: huge and unmapped addresses are never minor |
| HeapLayout.Allocate | src/gc/mem.hpp:379-394 | handing out storage for a header: a fresh non-null object pointer; its page is tagged with the region; its payload words exist and are zero; every earlier page, header and word keeps its value; the heap stays well formed |
| HeapLayout.EvacuationRegion | src/gc/mem.hpp:350-356 | the region of `moveMinor`'s copy: `Major` from age 5 on, `Minor` before |
| HeapLayout.EvacuatedHeader | src/gc/mem.hpp:350-356 | the copy's header: promoted to elder with colour white from age 5 on; otherwise still minor with its age increased by one; type, size, mask and the other flags kept |
| HeapLayout.CopyWords | src/gc/mem.hpp:358-361 | the copy loop: word `i` of the copy takes word `i` of the original for every `i < n`, and no other word changes |
| HeapLayout.Evacuate | src/gc/mem.hpp:343-367 | `moveMinor`: the copy is a fresh object with the evacuated header; the original gets `kIsMoved` and its word 0 becomes the forwarding pointer to the copy; the heap stays well formed |
| HeapLayout.EvacuatePages | src/gc/mem.hpp:350-356 | after `moveMinor` the copy's page is `Major` from age 5 on and `Minor` before; every earlier page keeps its region |
| HeapLayout.EvacuateCopies | src/gc/mem.hpp:358-361 | after `moveMinor` each payload word of the copy equals the original's |
| HeapLayout.EvacuateKeepsWords | src/gc/mem.hpp:358-364 | after `moveMinor` every word that existed, except the forwarding word of the original, still exists and is unchanged |
| HeapLayout.ReadBarrier | src/gc/mem.hpp:208-217 | corrected `readWithBarrier`: outside `kMinorGC`, and for a null slot, the slot's value; for a target that has not moved, the target; for a moved target, its forwarding word; the result is null or an object |
| HeapLayout.Forward | src/gc/mem.hpp:213-215 | the value the read barrier follows: a moved target's word 0; a null or unmoved target itself |
| HeapLayout.ReadBarrierHeals | src/gc/mem.hpp:208-217 | once the slot is rewritten to the barrier's answer, a second read returns the same value, when the forwardee has not itself moved |
| HeapLayout.ReadBarrierAsWritten | src/gc/mem.hpp:208-217 | `readWithBarrier` as written reads the header of a null target during a minor collection (`None`); in every other case it answers what the corrected barrier answers |
| GcMemory.FreeListChainsDown | src/gc/mem.hpp:37-45 | following the links `initFreeList` writes, from slot `k` down, visits `k, k-1, ..., offset` and ends at null |
| GcMemory.Page.constructor | src/gc/mem.hpp:19-23 | a page of `PageSize / ObjSize` slots, for an object size that is a non-zero multiple of 8 that fits more than twice in a page |
| GcMemory.Page.InitFreeList | src/gc/mem.hpp:37-45 | slots below `offset` are untouched; slot `offset` links to null; each later slot links to the previous slot; the result is the last slot, or null when no slot is linked |
| GcMemory.AllocRegion | src/gc/mem.hpp:118-127 | `allocHeap` routes to `Major` exactly when the header has a finalizer, or is big, or its size is at least a page; otherwise to `Minor` |
| GcMemory.NurseryObjectsFitInAPage | src/gc/mem.hpp:118-127 | an object routed to the nursery has an in-header size, and its header and payload fit in one page |
| GcMemory.AllocatedHeader | src/gc/mem.hpp:372-389 | the stored header, as the allocators' comments promise: `kIsMinorObject` is set exactly for the nursery, and every other flag and field equals the prototype's |
| GcMemory.BarrierRecords | src/gc/mem.hpp:192-196 | `writeWithBarrier`'s test: a non-null nursery `src` stored into a `dst` that is not on a nursery page |
| GcMemory.IsMinorPageAsWritten | src/gc/mem.hpp:325-331 | `isMemTypeMinor` with `getPageId` as written: every address is looked up as page 0 |
| GcMemory.BarrierRecordsAsWritten | src/gc/mem.hpp:192-196 | `writeWithBarrier`'s test with `getPageId` as written |
| GcMemory.RecordStore | src/gc/mem.hpp:187-198 | the card table after a store: it grows by at most `dst`, and it holds `dst` exactly when it did before or when `src` is non-null and minor and `dst` is not minor |
| GcMemory.RecordStoreIdempotent | src/gc/mem.hpp:266-268 | storing again to the same slot leaves a single entry: the card table is a set, and it grows by at most one per store |
| GcMemory.BarrierAsWrittenNeverRecords | src/gc/mem.hpp:192-193 | with `getPageId` as written, the source and destination always get the same answer, so the barrier never records |
| GcMemory.BarrierAsWrittenMissesOldToYoung | src/gc/mem.hpp:192-193 | a store of a nursery object into an elder slot is recorded by the corrected barrier but missed as written |
| GcMemory.PendingEmpty | src/gc/mem.hpp:226-229 | no slot is pending exactly when both the mark queue and the card table are empty |
| GcMemory.TakeSlot | src/gc/mem.hpp:230-238 | corrected slot choice: the front of the mark queue if there is one, else a card-table entry, else none; the slot taken leaves the pending work and nothing else does |
| GcMemory.TakeSlotAsWritten | src/gc/mem.hpp:230-238 | as written: with an empty card table the assertion fails (`None`); otherwise the queue front is popped and discarded and a card-table entry is taken |
| GcMemory.TakeSlotAsWrittenDropsQueuedSlot | src/gc/mem.hpp:230-238 | a queued slot disappears without being processed when the card table is not empty, and a non-empty queue with an empty card table stops the step |
| GcMemory.ClassifySlot | src/gc/mem.hpp:240-253 | the step's case for a slot: not minor exactly when the target is not on a nursery page; forwarded exactly when a minor target has `kIsMoved`; evacuated only for an unmoved target outside the pages filled in this collection |
| GcMemory.ForwardedSlotHealsLikeReadBarrier | src/gc/mem.hpp:245-248 | healing a forwarded slot writes the same value the read barrier returns |
| GcMemory.ReadBarrierFollowsEvacuation | src/gc/mem.hpp:363-364 | after `moveMinor`, a read through any other slot that pointed at the original returns the copy |
| GcMemory.AllocateKeepsMinorFlagged | src/gc/mem.hpp:379-382 | after an allocation every object on a nursery page still has `kIsMinorObject` |
| GcMemory.EvacuateKeepsMinorFlagged | src/gc/mem.hpp:350-356 | after `moveMinor` every object on a nursery page still has `kIsMinorObject` |
| GcMemory.EvacuateKeepsValid | src/gc/mem.hpp:343-367 | `moveMinor` keeps the collector's invariant: pages below the top, the card table, the queue and the huge table within memory, and the copy not moved; no word disappears |
| GcMemory.SlotStep | src/gc/mem.hpp:240-258 | one slot processed: not minor or already in a filled page, nothing changes; forwarded, the slot is healed; otherwise the target is evacuated, the slot points to the copy, the copy's pointer slots are appended to the queue and its page becomes a target when it stays minor; the queue only grows at its end and targets and pages are only added |
| GcMemory.SlotStepKeepsInvariant | src/gc/mem.hpp:240-258 | processing any heap slot keeps the collector's invariant: memory well formed, pages below the top, the card table, the queue and the huge table within memory, nursery objects flagged |
| GcMemory.MinorStepped | src/gc/mem.hpp:230-258 | one corrected `minorGcStep`: with no pending slot nothing changes; otherwise the slot is the queue's front (popped) or, with an empty queue, a card-table entry (erased), and the state becomes `SlotStep` of it |
| GcMemory.Unevacuated | src/gc/mem.hpp:240-253 | the objects a minor collection still has to evacuate: on a nursery page not filled in this collection, and not moved |
| GcMemory.StepsLeft | src/gc/mem.hpp:159-168 | the bound on the steps left: the pending slots plus nine per object still to evacuate |
| GcMemory.SlotStepShrinks | src/gc/mem.hpp:240-258 | processing a slot never raises the queue length plus nine per object to evacuate: an evacuation removes its object and queues at most eight slots |
| GcMemory.EvacuateRemovesObject | src/gc/mem.hpp:350-363 | evacuating an object marks it moved, so it leaves the objects still to evacuate, and its copy is elder or on a page just recorded as filled, so it never joins them |
| GcMemory.MinorStepShrinks | src/gc/mem.hpp:230-258 | every step that takes a slot strictly lowers `StepsLeft` |
| GcMemory.StepRun | src/gc/mem.hpp:159-168 | a run of repeated steps, each taking and processing one slot, through states that keep the collector's invariant |
| GcMemory.MinorCollectionTerminates | src/gc/mem.hpp:159-168 | termination: repeated `singleThreadGcStep` calls with no other mutation take at most `StepsLeft` of the starting state slots before the collection is finished |
| GcMemory.Memory.constructor | src/gc/mem.hpp:278-297 | a collector in `Normal`, with no pages, no huge objects, no card-table entries, an empty queue and no roots |
| GcMemory.Memory.AllocHeap | src/gc/mem.hpp:118-127 | allocates in the region `allocHeap` chooses, under the flag-adjusted prototype header; a fresh page is tagged with that region; earlier pages and words keep their values; the payload is zeroed |
| GcMemory.Memory.RegisterGcRoot | src/gc/mem.hpp:148-150 | appends the slot to `root` and changes nothing else |
| GcMemory.Memory.BeginMinorGc | src/gc/mem.hpp:76-95 | from `Normal` enters `MinorGC` with no pages yet filled by the collection; nothing else changes |
| GcMemory.Memory.WriteWithBarrier | src/gc/mem.hpp:187-198 | always stores `src` into `dst`; the card table becomes `RecordStore` of the old one; nothing else changes |
| GcMemory.Memory.PostWrite | src/gc/mem.hpp:266-268 | adds `dst` to the card table and changes nothing else |
| GcMemory.Memory.ReadWithBarrier | src/gc/mem.hpp:208-217 | returns `ReadBarrier`'s answer and writes it back into the slot, which changes nothing outside `kMinorGC`; nothing else changes |
| GcMemory.Memory.MinorGcFinished | src/gc/mem.hpp:226-229 | finished exactly when no slot is pending in the mark queue or the card table |
| GcMemory.Memory.SingleThreadGcStep | src/gc/mem.hpp:159-168 | in `Normal`, true and nothing changes; in `MajorGC`, false and nothing changes; in `MinorGC`, one `MinorStepped` step, then true exactly when the card table and the mark queue are empty; a call with work pending strictly lowers `StepsLeft` |
| GcMemory.Memory.MinorGcStep | src/gc/mem.hpp:230-259 | the state before and after satisfy `MinorStepped` for the slot taken: the queue's front, else one card-table entry, then `SlotStep`; with no work nothing changes; the collector's invariant is kept |
| GcMemory.Memory.ProcessSlot | src/gc/mem.hpp:240-258 | pages, targets, memory and queue become `SlotStep` of the old ones for the slot; the card table, stage, roots and huge table are unchanged and the invariant is kept |
| GcMemory.Memory.MoveMinor | src/gc/mem.hpp:343-367 | memory and page table become `Evacuate`'s; the copy's page joins the pages filled in this collection when the copy stays minor; the copy carries the evacuated header and is not marked moved; no word disappears |
| GcMemory.Memory.EvacuateObject | src/gc/mem.hpp:343-367 | the allocation, the copy loop and the forwarding word together compute `Evacuate`, keep the collector's invariant and give the copy the evacuated header |
| GcMemory.Memory.CopyPayload | src/gc/mem.hpp:358-361 | the copy loop computes `CopyWords`: word `i` of the copy equal to word `i` of the original for every `i < n`, no other address touched |
| GcMemory.Memory.PointerSlots | src/gc/mem.hpp:416-420 | the loop over the eight mask bits collects exactly `PointerMembers` |
| GcMemory.Memory.PushPointerMembers | src/gc/mem.hpp:256-258 | `callWithPointerMember` with the push callback appends the object's pointer slots to the mark queue in index order |
| VmMemory.GetMemType | src/vm/mem.hpp:179-191 | the variant's `getMemType`: the page table's entry; else `Huge` inside a huge object; else `Unmanaged` |
| VmMemory.GetMemTypeAgreesWithCollector | src/vm/mem.hpp:179-191 | where the collector's lookup finds a region the variant finds the same one; where the collector's assertion fails the variant answers `Unmanaged` |
| VmMemory.VmBarrierRecords | src/vm/mem.hpp:95-100 | the variant's test: a non-null `src` whose region is `Minor`, stored into a `dst` whose region is `Major`, `Static` or `Huge` |
| VmMemory.VmRecordStore | src/vm/mem.hpp:90-103 | the variant's card table after a store: it grows by at most `dst`, and holds `dst` exactly when it did or `src` is non-null and minor and `dst` is `Major`, `Static` or `Huge` |
| VmMemory.VmRecordStoreIdempotent | src/vm/mem.hpp:130-132 | a second store to the same slot leaves the card table as the first left it |
| VmMemory.VmBarrierIffCollectorBarrier | src/vm/mem.hpp:95-100 | the variant records exactly the stores the collector records whose destination is not `Unmanaged` |
| VmMemory.VmBarrierSkipsUnmanagedDestination | src/vm/mem.hpp:95-100 | a nursery object stored into an unmapped slot: the collector records it and the variant does not |
| VmMemory.VmMemory.constructor | src/vm/mem.hpp:123-157 | `Normal`, no pages, no huge objects, an empty card table and no roots |
| VmMemory.VmMemory.AllocHeap | src/vm/mem.hpp:38-46 | routes to `Major` exactly when the header has a finalizer, is big or its size is at least a page, as the collector does; the stubs answer null |
| VmMemory.VmMemory.WriteWithBarrier | src/vm/mem.hpp:90-103 | always stores `src` into `dst`; the card table becomes `VmRecordStore` of the old one |
| VmMemory.VmMemory.PostWrite | src/vm/mem.hpp:130-132 | adds `dst` to the card table and changes nothing else |
| VmMemory.VmMemory.ReadWithBarrier | src/vm/mem.hpp:113-122 | returns the read barrier's answer and heals the slot with it; outside `kMinorGC` returns the slot and changes nothing |
| VmMemory.VmMemory.SingleThreadGc | src/vm/mem.hpp:65-72 | never reports the collection finished |
| Lexer.GetChar | src/frontend/lexer/lexer.hpp:255-260 | the character at the index, or NUL at and past the end |
| Lexer.CharClassesDisjoint | src/frontend/lexer/lexer.hpp:241-253 | single-only symbols, operator characters and identifier characters do not overlap; digits are identifier and hex characters; NUL is in no class |
| Lexer.GetCacheKey | src/frontend/lexer/lexer.hpp:262-267 | aborts (`None`) exactly when the index reaches `SIZE_MAX / 2`; otherwise the key fits a `size_t` and decodes to the index and the guidance |
| Lexer.CacheKeyInjective | src/frontend/lexer/lexer.hpp:262-267 | two lookups share a key exactly when they have the same index and guidance |
| Lexer.LineEnd | src/frontend/lexer/lexer.hpp:106-108 | the first newline at or after the index, or the end of the text |
| Lexer.IsSpace | src/frontend/lexer/lexer.hpp:100-101 | `isspace` in the C locale: space, tab, newline, vertical tab, form feed, carriage return |
| Lexer.IsDigit | src/frontend/lexer/lexer.hpp:151 | `isdigit`: `0` to `9` |
| Lexer.IsAlpha | src/frontend/lexer/lexer.hpp:252 | `isalpha` in the C locale: ASCII letters |
| Lexer.IsHexDigit | src/frontend/lexer/lexer.hpp:229 | the hexadecimal digits `skipQuotedChar` accepts after `\u` or `\x` |
| Lexer.IsSingleOnlySymbol | src/frontend/lexer/lexer.hpp:241-243 | `isSingleOnlySymbol`: `;`, brackets, braces, parentheses, `,` and `:` |
| Lexer.IsConcatSymbol | src/frontend/lexer/lexer.hpp:245-248 | `isConcatSymbol`: the fifteen operator characters that run together into one symbol |
| Lexer.IsLegalIdent | src/frontend/lexer/lexer.hpp:250-253 | `isLegalIdent`: letters, digits, `_` and any character with the high bit set |
| Lexer.SpaceEnd | src/frontend/lexer/lexer.hpp:98-112 | where skipping stops: not before the start, within the text, and at neither a blank nor `//` |
| Lexer.SpaceEndIdempotent | src/frontend/lexer/lexer.hpp:98-112 | skipping again from where skipping stopped does not move |
| Lexer.DigitsEnd | src/frontend/lexer/lexer.hpp:210-212 | the end of the run of digits from the index: every character before it is a digit and the one at it is not |
| Lexer.NumSeqEnd | src/frontend/lexer/lexer.hpp:209-213 | `skipNumSeq` advances at least once, past digits only, and stops at a non-digit |
| Lexer.HexLoop | src/frontend/lexer/lexer.hpp:227-232 | the escape loop advances at most `len` characters and stays within the text |
| Lexer.HexLoopReadsDigits | src/frontend/lexer/lexer.hpp:227-232 | every character the escape loop passes is a hex digit, and when it stops early it stops at a non-hex character |
| Lexer.HexLoopStays | src/frontend/lexer/lexer.hpp:227-232 | once the loop meets a non-hex character it never advances again |
| Lexer.QuotedCharEnd | src/frontend/lexer/lexer.hpp:215-239 | `skipQuotedChar`: a plain character takes one position; `\n`, `\r`, `\t`, `\\` take two; `\u` takes 2 to 10; `\x` takes 2 to 4; any other backslash takes only the backslash |
| Lexer.QuotedRunEnd | src/frontend/lexer/lexer.hpp:124-126 | the string loops stop at the end of the text, at a quote or, in template mode, at `{` |
| Lexer.RunEnd | src/frontend/lexer/lexer.hpp:181-189 | a run of operator or identifier characters is maximal: every character inside belongs to the class and the one after does not |
| Lexer.NumberTail | src/frontend/lexer/lexer.hpp:162-177 | the exponent and suffix part of a number stays within the text and answers `kInt`, `kReal` or `kUnknown` |
| Lexer.NumberScan | src/frontend/lexer/lexer.hpp:151-177 | a number token is non-empty, stays within the text, and is `kInt`, `kReal` or `kUnknown` |
| Lexer.CloseString | src/frontend/lexer/lexer.hpp:127-132 | a string piece ends after `{` or after a quote with the given type, and is `kUnknown` before anything else |
| Lexer.ExpandTemplate | src/frontend/lexer/lexer.hpp:194-207 | a template continuation must start at `}`, else `kUnknown` at the same index; it is `kStringMiddle`, `kStringEnd` or `kUnknown` |
| Lexer.Expand | src/frontend/lexer/lexer.hpp:114-192 | `expandToken`: an empty `kEOF` at or past the end; otherwise a token of any other type that ends within the text |
| Lexer.SingleSymbolToken | src/frontend/lexer/lexer.hpp:178-179 | a single-only symbol is a one-character `kSymbol` |
| Lexer.RunTokensAreMaximal | src/frontend/lexer/lexer.hpp:180-189 | operator runs give `kSymbol` and identifier runs give `kIdentifier`, each as long as possible |
| Lexer.NumberClassification | src/frontend/lexer/lexer.hpp:151-177 | digits then `f` or `d` is `kReal` including the suffix; digits then `.` and a non-digit is `kInt` before the dot; `e` without a digit or sign is `kUnknown`; `kReal` tokens end in `f` or `d` |
| Lexer.NumberExamples | src/frontend/lexer/lexer.hpp:151-177 | `3e8` and `0.0` are `kInt`, `0f` is `kReal`, and `0.` is the `kInt` `0` |
| Lexer.StringClassification | src/frontend/lexer/lexer.hpp:122-141 | a plain string is `kStringFull` when closed, otherwise `kUnknown`; `f"` opens `kStringBegin` at `{` or closes as `kStringFull`; with template guidance, `}` continues as `kStringMiddle` or `kStringEnd` |
| Lexer.Lex | src/frontend/lexer/lexer.hpp:93-95 | corrected token: it starts where skipping stops, its text is the source between its start and `expandToken`'s end, so it ends exactly there, and its type is `expandToken`'s |
| Lexer.LexAsWritten | src/frontend/lexer/lexer.hpp:95 | as written, the token's length is `endIndex - startIndex`, measured from the index before skipping and clipped at the end of the text: same start and type, and never shorter |
| Lexer.LexAsWrittenOverruns | src/frontend/lexer/lexer.hpp:95 | as written and corrected agree when nothing is skipped; on ` ab+` the as-written token is `ab+` instead of `ab` |
| Lexer.NextAsWritten | src/frontend/lexer/lexer.hpp:88-96 | `next` as written: the inverted cache test, a lookup that fails dereferences `end()` (`None`), a hit is recomputed with `LexAsWritten` and stored |
| Lexer.NextAsWrittenNeverYields | src/frontend/lexer/lexer.hpp:90-92 | with the inverted cache test, the first lookup on an empty cache dereferences `end()` (`None`) and caches nothing |
| Lexer.LexerContext.constructor | src/frontend/lexer/lexer.hpp:34 | a lexer over the text with an empty cache |
| Lexer.LexerContext.Next | src/frontend/lexer/lexer.hpp:88-96 | corrected `next`: `Lex` of the start and guidance, cached under the key; aborts when the key overflows; every cached token is the one `Lex` gives for its key |
| Lexer.LexerContext.First | src/frontend/lexer/lexer.hpp:81 | the token at the start of the text with no guidance |
| Lexer.LexerContext.NextAfter | src/frontend/lexer/lexer.hpp:83-85 | the token starting where the previous token's text ends; earlier cache entries are kept |
| Lexer.LexerContext.SkipSpaceAndComment | src/frontend/lexer/lexer.hpp:98-112 | the nested skipping loops stop where `SpaceEnd` says |
| Lexer.LexerContext.SkipNumSeq | src/frontend/lexer/lexer.hpp:209-213 | the do-while loop stops where `NumSeqEnd` says |
| Lexer.LexerContext.SkipQuotedChar | src/frontend/lexer/lexer.hpp:215-239 | the escape scanner stops where `QuotedCharEnd` says |
| Lexer.LexerContext.SkipQuotedRun | src/frontend/lexer/lexer.hpp:135-137 | the string loop stops where `QuotedRunEnd` says |
| Lexer.LexerContext.ExpandTemplateString | src/frontend/lexer/lexer.hpp:194-207 | computes `ExpandTemplate` |
| Lexer.LexerContext.ExpandToken | src/frontend/lexer/lexer.hpp:114-192 | computes `Expand` |
| Lexer.LexerContext.ExpandNumber | src/frontend/lexer/lexer.hpp:151-177 | the number branch computes `NumberScan` |
| StringPools.TokensIdentifyStrings | src/tools/string_pool.hpp:13-20 | two interned strings share a token exactly when they are equal |
| StringPools.StorageDistinct | src/tools/string_pool.hpp:22-23 | no string is stored twice |
| StringPools.StringPool.constructor | src/tools/string_pool.hpp:21-23 | an empty pool |
| StringPools.StringPool.View | src/tools/string_pool.hpp:19 | the string a token denotes is the one in the table whose view is that token |
| StringPools.StringPool.Take | src/tools/string_pool.hpp:13-20 | the token denotes `s`; a hit changes nothing; a miss stores one copy and one view; earlier strings keep their positions, so every token that denoted a string still denotes it |
| TypeManagers.FindCached | src/ir/type.hpp:123-131 | on a hit, the stored token and the cache unchanged; on a miss, the created token, now stored; existing entries never change |
| TypeManagers.FindCachedIdempotent | src/ir/type.hpp:123-131 | a second lookup of the same key hits and returns the first answer, whatever the callback would create |
| TypeManagers.ArrayTokensDistinct | src/ir/type.hpp:93-98 | distinct element types get distinct array-type tokens |
| TypeManagers.TupleTokensCollide | src/ir/type.hpp:99-104 | the tuple callback creates nothing, so two different member lists share the last type's token |
| TypeManagers.TypeManager.constructor | src/ir/type.hpp:71-84 | one empty layout; the tuple at token 0; `dynamic`, `i64`, `u64`, `f64` as plain base types at tokens 1-4; `any` as a class at token 5; each name token denotes its name in the pool |
| TypeManagers.TypeManager.InternBaseNames | src/ir/type.hpp:79-83 | the five names are interned in order and each returned token denotes its name |
| TypeManagers.TypeManager.GetType | src/ir/type.hpp:89-91 | the type at the token; the seeded tokens keep their types |
| TypeManagers.TypeManager.ArrayTypeOf | src/ir/type.hpp:93-98 | the memoised array type of the element type; a miss appends exactly one array type, whose token is stored |
| TypeManagers.TypeManager.TupleTypeOf | src/ir/type.hpp:99-104 | memoised by member list; a miss stores the last type's token and appends nothing |
| ObjectPools.ObjectPool.constructor | src/tools/obj_pool.hpp:23-25 | no chunks and `next == end`, so the first `get` allocates |
| ObjectPools.ObjectPool.Get | src/tools/obj_pool.hpp:34-42 | when `next == end`, a new chunk is appended and its slot 0 returned; otherwise `next` is returned and the chunk list kept; the slot was never handed out before; the chunk count is `ceil(calls / CHUNK_CNT)` |
| ObjectPools.PrependKeepsLinked | src/tools/obj_pool.hpp:77-80 | a node in an unused slot, pointing at the old head, heads a chain one longer whose values are the new value then the old ones |
| ObjectPools.PooledList.Contents | src/tools/obj_pool.hpp:63-71 | the values reached from `head`, one per node |
| ObjectPools.PooledList.constructor | src/tools/obj_pool.hpp:72 | an empty list over the pool |
| ObjectPools.PooledList.EmplaceFront | src/tools/obj_pool.hpp:77-80 | the new node sits in a pool slot never handed out before, and the pool's issued slots grow by exactly that one; the node holds the value and links to the old head, which it replaces; the contents gain the value at the front |
| ObjectPools.EmplaceFrontShared | src/tools/obj_pool.hpp:70-80 | two lists over one pool: adding to one leaves the other valid with the same contents |
| InplaceVectors.InplaceVector.constructor | src/tools/inplace_vector.hpp:9-15 | size 0, with no object in any slot |
| InplaceVectors.InplaceVector.Begin | src/tools/inplace_vector.hpp:17 | `begin()` is slot 0 |
| InplaceVectors.InplaceVector.End | src/tools/inplace_vector.hpp:18 | `end() - begin() == size`, at most the capacity; exactly the slots before `end()` hold objects |
| InplaceVectors.InplaceVector.Elements | src/tools/inplace_vector.hpp:17-18 | the objects in `[begin(), end())`, in slot order |
| InplaceVectors.InplaceVector.Emplace | src/tools/inplace_vector.hpp:19-24 | with room left (the assertion), the new object sits at the old size, the size grows by one, every other slot is unchanged, and the elements gain it at the back |
| InplaceVectors.InplaceVector.PopBack | src/tools/inplace_vector.hpp:25-28 | on a non-empty vector the size drops by one, the last slot no longer holds an object, every other slot is unchanged, and the last element is dropped |
| Contexts.Run | src/tools/context.hpp:26-32 | the stack after a sequence of `setContext` (push) and `removeContext` (pop) calls; undefined (`None`) once a pop meets an empty stack |
| Contexts.RunKeepsOuterContexts | src/tools/context.hpp:26-32 | calls that never remove more contexts than they set leave the earlier contexts untouched at the bottom of the stack, and the stack is deeper by the net count |
| Contexts.BalancedRunRestores | src/tools/context.hpp:26-32 | LIFO: such calls, setting as many contexts as they remove, restore the stack they started from |
| Contexts.SetThenRemoveRestores | src/tools/context.hpp:26-32 | `setContext` followed by `removeContext` restores any stack |
| Contexts.ContextProvider.constructor | src/tools/context.hpp:35 | an empty stack |
| Contexts.ContextProvider.GetContext | src/tools/context.hpp:21-24 | on a non-empty stack, the back of the stack, which is the context whose `setContext` produced the current stack: the most recent one not yet removed |
| Contexts.ContextProvider.SetContext | src/tools/context.hpp:26-28 | the stack becomes the old one with `ctx` pushed on the back |
| Contexts.ContextProvider.RemoveContext | src/tools/context.hpp:30-32 | on a non-empty stack, the stack becomes the old one with its back popped |

## Left out

- Raw pointer arithmetic, `std::launder`, `reinterpret_cast`, `alignas` and byte layout: addresses are numbers and object slots are map entries.
- `getMinorPageInfo` reinterprets a page id as a struct (src/gc/mem.hpp:332-334). It is modelled as the set `minorGcTargets` of pages filled during the current collection. This reads `isMinorGcTarget` as marking to-space pages, which the source never sets.
- Type metadata is given as the functions `objSize` and `headerPrototype`:
  - `tm->getType(...).objSize()` and `headerPrototype()`;
  - the native pointer scanner and the `layout()` fallback for objects of eight or more words (src/gc/mem.hpp:412-415, 421-423).
  - GcMemory.Memory.AllocHeap: requires of the metadata that a type's header prototype marks as pointers only payload words the object has (`MaskFits`).

  In the variant, `getSize` of a big object returns the type itself (src/vm/mem.hpp:169), which does not compile; it is modelled as the metadata size.
- `registerGcRootScanner` and the `rootScanner` callback: the callback is opaque.
- `concurrentGcStep`, `concurrentGc` and the empty `MajorGC` branch: these are concurrency stubs.
- `allocStatic`: it is a stub.
- The variant's `registerGcRoot`: its body is empty.
- `allocMinor` and `allocMajor` are stubs that return null.
  - The collector model replaces their storage with an abstract bump allocator over fresh pages (`HeapLayout.Allocate`), so that `moveMinor` and the barriers have objects to work on.
  - The variant's `AllocHeap` keeps the null result.
- HeapLayout.Reserved: the allocator gives an object with no payload one payload word, so that `moveMinor`'s forwarding store `objPtr[0] = p` (src/gc/mem.hpp:364) lands inside the object. In the source that word is not part of a zero-payload object, and the store writes past it.
- GcMemory.Memory.BeginMinorGc: no source code changes `stage`. This member is the one transition the lifecycle comment describes. The rest of the lifecycle, including root scanning on entry, is not modelled.
- HeapLayout.WellFormed: every heap word is null or the base of an object, so the model's heap holds pointers only. The integer and floating-point payload words an object may carry (src/defs.hpp:46, 93-102) are not modelled; the pointer mask and `kHasPointerMember` still decide which words the collector visits.
- GcMemory.Memory.WriteWithBarrier: `dst` must be a word of the modelled heap. Slots outside it, such as stack or static slots the source also writes through, are not modelled (src/gc/mem.hpp:192-194). For the same reason the card table and the mark queue hold heap words only (`GcMemory.CollectorInvariant`).
- GcMemory.AllocatedHeader: follows the allocators' doc comments (src/gc/mem.hpp:372-377, 384-389): only `kIsMinorObject` may differ from the prototype, set for the nursery and clear elsewhere. It also matches `moveMinor`'s `setColor` on promoted copies (src/gc/mem.hpp:352, src/defs.hpp:64). It does not follow the stub bodies: `allocMajor` clears the flag and then calls `allocMinor`, which would set it again (src/gc/mem.hpp:391-394).
- Lexer.NumberScan: follows the code, which answers `kInt` for `3e8` and `0.0`. The comment on `kReal` (src/frontend/lexer/lexer.hpp:54) is taken as stale: it also lists `0.`, which the deliberate `index - 1` branch (src/frontend/lexer/lexer.hpp:159) returns as the `kInt` `0`.
- `Page::initFreeList` writes links into the page's own slots. The model keeps them in a separate array of the page's slot count.
- `LexerContext`'s move constructor and move assignment (src/frontend/lexer/lexer.hpp:35-40) only move the text and the cache; its copy constructor is implicitly deleted.
- `PooledList`'s defaulted copy and move constructors (src/tools/obj_pool.hpp:73-74) only copy the pool pointer and `head`, so a copy shares its nodes with the original; it has no move assignment.
- `ObjectPool`'s copy and move constructors and assignments are deleted (src/tools/obj_pool.hpp:28-31), so a pool is only ever shared through pointers.
- `ObjectPool`'s `pool.reserve(32)`: a capacity hint.
- ObjectPools.ObjectPool.constructor: requires a non-zero `CHUNK_CNT`. The default `PageSize / sizeof(OBJ)` (src/tools/obj_pool.hpp:20, 69) is 0 for an object larger than a page, and `get()` would then hand out slots of a chunk with no slots; that case is not modelled.
- `MultiObjPool` and the commented-out `get_list` and `get_array`: they have empty or incomplete bodies.
- ObjectPools.PooledList.EmplaceFront: returns nothing. The source declares a `T&` result but never returns one.
- InplaceVectors.InplaceVector.Emplace: returns the index of the new object. The source declares a `T&` result but never returns one.
- InplaceVectors.InplaceVector.PopBack: `data[size].byte` in the source is a typo for `bytes` and does not compile. The model destroys the object in that slot.
- TypeManagers.TypeManager.ArrayTypeOf: `ArrayType{base}` (src/ir/type.hpp:95) does not compile: it would initialise the `size` vector from a `TypeToken` and leave `elementType` without a value. The model reads it as an array type with no fixed sizes and element type `base`.
- Contexts.ContextProvider.GetContext: the source's `assert()` has no argument and does not compile. The model takes the non-empty stack as its precondition.
- `ThreadedContextProvider`'s `ctxVector` is `thread_local` and its members are static. One `ContextProvider` object stands for one thread's stack.
- The lexer's `CharType` is `char`, and `isspace`, `isalpha` and `isdigit` are taken in the C locale.
- The string pool and the type manager hash by contents. The model's maps answer the same hits and misses.
- TypeManagers.TypeManager.TupleTypeOf: modelled as written. A miss stores the last type's token and appends no tuple type, so different member lists share a token (`TypeManagers.TupleTokensCollide`).
- The `templates` vector, the other `Type` variants and the `sp` pointer of `TypeManager`: no core operation touches them.
- `size_t` wrap-around in `ObjectPool` and `inplace_vector`: `size - 1` on an empty vector is excluded by `pop_back`'s precondition.
- Overflow of `getCacheKey` is the only `size_t` limit the lexer model states.

## Findings

| source | as written | input that shows it | evidently intended | confidence | as-written member | corrected member |
|---|---|---|---|---|---|---|
| src/gc/mem.hpp:69-72 | `getPageId` masks with `!(PageSize - 1)`, a logical not, which is 0, so every page id is 0 (the same line is at src/vm/mem.hpp:162-165) | addresses 4096 and 8192 both get page id 0; a nursery object stored into an elder slot is not recorded | mask with `~(PageSize - 1)`, giving the page's base address | high, not executed | HeapLayout.PageIdAsWritten, HeapLayout.PageIdAsWrittenCollapsesPages, GcMemory.BarrierAsWrittenMissesOldToYoung | HeapLayout.PageId, GcMemory.RecordStore |
| src/defs.hpp:84-86 | `addFlag` does `flag &= f`, which clears every other flag and sets nothing | a header with no flags: `addFlag(kIsMoved)` leaves `kIsMoved` unset, so a moved object is never seen as moved | `flag \|= f` | high, not executed | ObjectHeader.AddFlagAsWritten, ObjectHeader.AddFlagAsWrittenCannotSet | ObjectHeader.AddFlag |
| src/gc/mem.hpp:230-238 | `minorGcStep` pops the queue front into `now`, then overwrites `now` with a card-table entry | queue `[4096]` with card table `{8192}`: slot 4096 is dropped unprocessed; queue `[4096]` with an empty card table fails the assertion | take the queue front if there is one, otherwise a card-table entry | high, not executed | GcMemory.TakeSlotAsWritten, GcMemory.TakeSlotAsWrittenDropsQueuedSlot | GcMemory.TakeSlot, GcMemory.Memory.MinorGcStep |
| src/gc/mem.hpp:358-361 | `moveMinor` copies `getSize(h)` words, but `getSize` counts bytes | a header with `sizeCompressed == 1` copies 8 words for a one-word payload | copy `getSize(h) / sizeof(u64)` words | high, not executed | HeapLayout.CopyCountAsWritten, HeapLayout.CopyCountAsWrittenOverruns | HeapLayout.Evacuate, GcMemory.Memory.CopyPayload |
| src/gc/mem.hpp:208-217 | during a minor collection `readWithBarrier` reads the header of `*src` even when it is null (also src/vm/mem.hpp:113-122) | a slot holding null, read in `kMinorGC` | return null without reading a header, as `writeWithBarrier` does for a null source | medium, not executed | HeapLayout.ReadBarrierAsWritten | HeapLayout.ReadBarrier, GcMemory.Memory.ReadWithBarrier |
| src/frontend/lexer/lexer.hpp:90-92 | `next` returns the cached entry when the lookup *fails* (`it == cache.end()`) | the first call on a fresh lexer dereferences `end()`; a hit is recomputed | return the entry when `it != cache.end()` | high, not executed | Lexer.NextAsWritten, Lexer.NextAsWrittenNeverYields | Lexer.LexerContext.Next |
| src/frontend/lexer/lexer.hpp:95 | the token text is `substr(realStartIndex, endIndex - startIndex)`, measured from before the skipped blanks | on ` ab+` from index 0 the identifier token reads `ab+` instead of `ab` | length `endIndex - realStartIndex` | high, not executed | Lexer.LexAsWritten, Lexer.LexAsWrittenOverruns | Lexer.Lex |

=== FILE: context.dfy ===
/**
 * The context stack of src/tools/context.hpp.
 *
 * `ThreadedContextProvider<Ctx>` keeps one `ctxVector` per thread and its
 * members are static; an instance of `ContextProvider` here is the stack of
 * one thread.
 */
module Contexts {
  import opened Wrappers

  /** One call on the provider: `setContext(ctx)` or `removeContext()`. */
  datatype Op<Ctx> = Set(ctx: Ctx) | Remove

  /** The change of stack depth a call makes. */
  function Delta<Ctx>(op: Op<Ctx>): (d: int)
    ensures op.Set? <==> d == 1
    ensures op.Remove? <==> d == -1
  {
    if op.Set? then 1 else -1
  }

  /** The net change of depth of a run of calls. */
  function Net<Ctx>(ops: seq<Op<Ctx>>): int {
    if ops == [] then 0 else Net(ops[..|ops| - 1]) + Delta(ops[|ops| - 1])
  }

  /**
   * The stack after `ops` from `s`, one call at a time; `None` once a
   * `removeContext` meets an empty stack.
   */
  function Run<Ctx>(s: seq<Ctx>, ops: seq<Op<Ctx>>): Option<seq<Ctx>> {
    if ops == [] then Some(s)
    else match Run(s, ops[..|ops| - 1])
      case None => None
      case Some(t) =>
        match ops[|ops| - 1]
        case Set(c) => Some(t + [c])
        case Remove => if t == [] then None else Some(t[..|t| - 1])
  }

  /** No prefix of `ops` removes more contexts than it sets. */
  ghost predicate NeverBelow<Ctx>(ops: seq<Op<Ctx>>) {
    forall k :: 0 <= k <= |ops| ==> Net(ops[..k]) >= 0
  }

  /**
   * A run of calls that never removes more than it has set leaves the
   * contexts present before it untouched at the bottom of the stack, and
   * the stack `Net(ops)` deeper.
   */
  lemma {:induction false} RunKeepsOuterContexts<Ctx>(s: seq<Ctx>, ops: seq<Op<Ctx>>)
    requires NeverBelow(ops)
    ensures Run(s, ops).Some? && Net(ops) >= 0
    ensures |Run(s, ops).value| == |s| + Net(ops)
    ensures Run(s, ops).value[..|s|] == s
  {
    if ops != [] {
      var init := ops[..|ops| - 1];
      forall k | 0 <= k <= |init|
        ensures Net(init[..k]) >= 0
      {
        assert init[..k] == ops[..k];
      }
      RunKeepsOuterContexts(s, init);
      assert ops[..|ops|] == ops;
      var t := Run(s, init).value;
      match ops[|ops| - 1]
      case Set(c) =>
        assert (t + [c])[..|s|] == t[..|s|];
      case Remove =>
        assert |t| > |s|;
        assert t[..|t| - 1][..|s|] == t[..|s|];
    }
  }

  /**
   * LIFO: a run of calls that never goes below its start and sets as many
   * contexts as it removes restores the stack it started from.
   */
  lemma BalancedRunRestores<Ctx>(s: seq<Ctx>, ops: seq<Op<Ctx>>)
    requires NeverBelow(ops) && Net(ops) == 0
    ensures Run(s, ops) == Some(s)
  {
    RunKeepsOuterContexts(s, ops);
    var t := Run(s, ops).value;
    assert t == t[..|s|];
  }

  /** `setContext(c)` then `removeContext()` restores the stack, whatever it was. */
  lemma SetThenRemoveRestores<Ctx>(s: seq<Ctx>, c: Ctx)
    ensures Run(s, [Set(c), Remove]) == Some(s)
  {
    var ops := [Set(c), Remove];
    assert ops[..1] == [Set(c)] && [Set(c)][..0] == [];
    assert Run(s, [Set(c)]) == Some(s + [c]);
    assert (s + [c])[..|s|] == s;
  }

  class ContextProvider<Ctx> {
    /** `ctxVector`, whose back is the current context. */
    var stack: seq<Ctx>

    constructor ()
      ensures stack == []
    {
      stack := [];
    }

    /**
     * `getContext()`: the most recently set context not yet removed.
     * The stack must not be empty.
     */
    method GetContext() returns (c: Ctx)
      requires stack != []
      ensures c == stack[|stack| - 1]
      ensures Run(stack[..|stack| - 1], [Set(c)]) == Some(stack)
    {
      c := stack[|stack| - 1];
      assert [Set(c)][..0] == [];
      assert stack[..|stack| - 1] + [c] == stack;
    }

    /** `setContext(ctx)`: pushes `ctx` onto the back. */
    method SetContext(ctx: Ctx)
      modifies this
      ensures Run(old(stack), [Set(ctx)]) == Some(stack)
    {
      stack := stack + [ctx];
      assert [Set(ctx)][..0] == [];
    }

    /** `removeContext()`: pops the back. The stack must not be empty. */
    method RemoveContext()
      requires stack != []
      modifies this
      ensures Run(old(stack), [Remove]) == Some(stack)
    {
      stack := stack[..|stack| - 1];
      assert [Op<Ctx>.Remove][..0] == [];
    }
  }
}

=== FILE: gc_memory.dfy ===
/**
 * The generational, moving collector front end of src/gc/mem.hpp.
 *
 * `Page` is the fixed-size slot page with its free list. `Memory` is the
 * collector state: the page table, the huge-object table, raw memory, the
 * card table of old slots that may point at young objects, the mark queue of
 * slots still to scan, the registered roots and the collection stage. Its
 * methods are the write barrier, the read barrier, one step of a minor
 * collection and the evacuation of a young object; the pure functions beside
 * it state the decisions those methods take.
 *
 * Type metadata (`tm->getType(t)`) is given as two functions fixed at
 * construction: `objSize` (payload bytes of a big object's type) and
 * `headerPrototype` (the header a new object of a type starts with).
 */
module GcMemory {
  import opened Wrappers
  import opened ObjectHeader
  import opened HeapLayout

  // ---------------------------------------------------------------------------
  // Pages and their free lists

  /** Slots of a `Page` reached from slot `i` by following links that point one slot down, up to a null link. */
  function FreeChain(links: seq<nat>, base: nat, objSize: nat, i: nat): seq<nat>
    requires i < |links|
  {
    if links[i] != 0 && i > 0 && links[i] == base + objSize * (i - 1) then [i] + FreeChain(links, base, objSize, i - 1)
    else [i]
  }

  /**
   * After `initFreeList(offset)` the list starting at slot `k` (the returned
   * head is slot `N - 1`) visits the slots `k, k - 1, ..., offset` and ends at
   * the null link of slot `offset`.
   */
  lemma {:induction false} FreeListChainsDown(links: seq<nat>, base: nat, objSize: nat, offset: nat, k: nat)
    requires base != 0 && offset <= k < |links|
    requires links[offset] == 0
    requires forall i :: offset < i < |links| ==> links[i] == base + objSize * (i - 1)
    ensures |FreeChain(links, base, objSize, k)| == k - offset + 1
    ensures forall j :: 0 <= j < |FreeChain(links, base, objSize, k)| ==> FreeChain(links, base, objSize, k)[j] == k - j
  {
    if k > offset {
      FreeListChainsDown(links, base, objSize, offset, k - 1);
    }
  }

  /** `Page<ObjSize>`: `PageSize / objSize` slots at `base`; `links[i]` is the free-list word of slot `i`. */
  class Page {
    const base: nat
    const objSize: nat
    const links: array<nat>

    ghost predicate Valid()
      reads this
    {
      && objSize % WordSize == 0 && objSize != 0 && PageSize / objSize > 2
      && base % PageSize == 0 && base != 0
      && links.Length == PageSize / objSize
    }

    /** Address of slot `i`. */
    function SlotAddr(i: nat): nat {
      base + objSize * i
    }

    constructor (base: nat, objSize: nat)
      requires objSize % WordSize == 0 && objSize != 0 && PageSize / objSize > 2
      requires base % PageSize == 0 && base != 0
      ensures Valid() && this.base == base && this.objSize == objSize
    {
      this.base := base;
      this.objSize := objSize;
      links := new nat[PageSize / objSize];
    }

    /**
     * `initFreeList(offset)`: slot `offset` gets a null link, every later slot
     * a link to the slot below it, the first `offset` slots are untouched, and
     * the head returned is the last slot (null when no slot is free).
     */
    method InitFreeList(offset: nat) returns (head: nat)
      requires Valid()
      modifies links
      ensures forall i :: 0 <= i < links.Length && i < offset ==> links[i] == old(links[i])
      ensures offset < links.Length ==> links[offset] == 0
      ensures forall i :: offset < i < links.Length ==> links[i] == SlotAddr(i - 1)
      ensures head == if offset < links.Length then SlotAddr(links.Length - 1) else 0
    {
      var tmp := 0;
      var i := offset;
      while i < links.Length
        invariant offset <= i && (offset <= links.Length ==> i <= links.Length)
        invariant links.Length <= offset ==> i == offset
        invariant forall k :: 0 <= k < links.Length && k < offset ==> links[k] == old(links[k])
        invariant offset < i && offset < links.Length ==> links[offset] == 0
        invariant forall k :: offset < k < i && k < links.Length ==> links[k] == SlotAddr(k - 1)
        invariant tmp == if offset < i then SlotAddr(i - 1) else 0
      {
        links[i] := tmp;
        tmp := SlotAddr(i);
        i := i + 1;
      }
      head := tmp;
    }
  }

  // ---------------------------------------------------------------------------
  // Decisions of the memory manager

  /** `allocHeap`'s choice: the elder generation for finalizable, big or page-sized objects, else the nursery. */
  function AllocRegion(h: ObjHeader, objSize: nat -> nat): (r: MemType)
    ensures r == Minor || r == Major
    ensures r == Minor <==> !HasFlag(h, HasFinalizer) && !IsBigObject(h) && SizeBytes(h, objSize) < PageSize
  {
    if HasFlag(h, HasFinalizer) || IsBigObject(h) || SizeBytes(h, objSize) >= PageSize then Major else Minor
  }

  /** A nursery object fits in one page, header included, and has fewer than 512 payload words. */
  lemma NurseryObjectsFitInAPage(h: ObjHeader, objSize: nat -> nat)
    requires AllocRegion(h, objSize) == Minor
    ensures h.sizeCompressed < 255 && WordCount(h, objSize) == h.sizeCompressed
    ensures WordSize * (Reserved(h, objSize) + 1) <= PageSize
  {
  }

  /** `allocMinor` / `allocMajor`: the stored header differs from the prototype only in `IsMinorObject`. */
  function AllocatedHeader(h: ObjHeader, region: MemType): (r: ObjHeader)
    ensures HasFlag(r, IsMinorObject) <==> region == Minor
    ensures forall g :: g != IsMinorObject ==> (HasFlag(r, g) <==> HasFlag(h, g))
    ensures r.(flag := h.flag) == h
  {
    if region == Minor then AddFlag(h, IsMinorObject) else RemoveFlag(h, IsMinorObject)
  }

  /** `writeWithBarrier`'s test: a non-null store of a nursery pointer into a slot outside the nursery. */
  predicate BarrierRecords(pages: map<nat, MemType>, dst: nat, src: nat) {
    src != 0 && !IsMinorPage(pages, dst) && IsMinorPage(pages, src)
  }

  /** The card table after `writeWithBarrier(dst, src)`. */
  function RecordStore(card: set<nat>, pages: map<nat, MemType>, dst: nat, src: nat): (r: set<nat>)
    ensures card <= r && r - card <= {dst}
    ensures dst in r <==> dst in card || BarrierRecords(pages, dst, src)
  {
    if BarrierRecords(pages, dst, src) then card + {dst} else card
  }

  /** Repeating a store adds nothing more: the card table is a set, so a slot is recorded at most once. */
  lemma RecordStoreIdempotent(card: set<nat>, pages: map<nat, MemType>, dst: nat, src: nat, src': nat)
    ensures var once := RecordStore(card, pages, dst, src);
      RecordStore(once, pages, dst, src) == once
    ensures var once := RecordStore(card, pages, dst, src);
      RecordStore(once, pages, dst, src') - once <= {dst} && |RecordStore(once, pages, dst, src')| <= |card| + 1
  {
    var once := RecordStore(card, pages, dst, src);
    var twice := RecordStore(once, pages, dst, src');
    assert once <= card + {dst};
    assert twice <= card + {dst};
    SubsetCard(twice, card + {dst});
  }

  lemma SubsetCard(a: set<nat>, b: set<nat>)
    requires a <= b
    ensures |a| <= |b|
  {
    assert b == a + (b - a);
  }

  /** `isMemTypeMinor` as written: `getPageId` is always 0, so every address gets the answer of page 0. */
  predicate IsMinorPageAsWritten(pages: map<nat, MemType>, ptr: nat) {
    PageIdAsWritten(ptr) in pages && pages[PageIdAsWritten(ptr)] == Minor
  }

  /** `writeWithBarrier`'s test as written, with the as-written page id. */
  predicate BarrierRecordsAsWritten(pages: map<nat, MemType>, dst: nat, src: nat) {
    src != 0 && !IsMinorPageAsWritten(pages, dst) && IsMinorPageAsWritten(pages, src)
  }

  /** As written the barrier can never record: the destination and the source always get the same answer. */
  lemma {:induction false} BarrierAsWrittenNeverRecords(pages: map<nat, MemType>, dst: nat, src: nat)
    ensures !BarrierRecordsAsWritten(pages, dst, src)
  {
    assert PageIdAsWritten(dst) == PageIdAsWritten(src);
  }

  /** An old-to-young store the intended barrier records and the as-written one misses. */
  lemma BarrierAsWrittenMissesOldToYoung()
    ensures var pages := map[PageSize := Major, 2 * PageSize := Minor];
      BarrierRecords(pages, PageSize + WordSize, 2 * PageSize + WordSize)
      && !BarrierRecordsAsWritten(pages, PageSize + WordSize, 2 * PageSize + WordSize)
  {
    var pages := map[PageSize := Major, 2 * PageSize := Minor];
    assert PageId(PageSize + WordSize) == PageSize;
    assert PageId(2 * PageSize + WordSize) == 2 * PageSize;
    BarrierAsWrittenNeverRecords(pages, PageSize + WordSize, 2 * PageSize + WordSize);
  }

  // ---------------------------------------------------------------------------
  // Which slot a minor collection step takes

  /** Work left in a minor collection: the mark queue and the card table. */
  datatype Work = Work(queue: seq<nat>, card: set<nat>)

  function Pending(w: Work): multiset<nat> {
    multiset(w.queue) + multiset(w.card)
  }

  /** No pending work is left exactly when both the queue and the card table are empty. */
  lemma PendingEmpty(w: Work)
    ensures Pending(w) == multiset{} <==> w.queue == [] && w.card == {}
  {
    if w.queue != [] {
      assert w.queue[0] in multiset(w.queue);
    } else if w.card != {} {
      var x :| x in w.card;
      assert x in multiset(w.card);
    }
  }

  /**
   * The slot a step of `minorGcStep` takes, as intended: the front of the mark
   * queue, otherwise `first`, the card table entry iteration yields first.
   * `None` when no work is left. Exactly the slot taken leaves the pending work.
   */
  function TakeSlot(w: Work, first: nat): (r: Option<(nat, Work)>)
    requires w.card != {} ==> first in w.card
    ensures r.None? <==> w.queue == [] && w.card == {}
    ensures r.Some? ==> Pending(w) == Pending(r.value.1) + multiset{r.value.0}
    ensures r.Some? && w.queue != [] ==> r.value.0 == w.queue[0] && r.value.1 == Work(w.queue[1..], w.card)
    ensures r.Some? && w.queue == [] ==> r.value.0 in w.card && r.value.1 == Work([], w.card - {r.value.0})
  {
    if w.queue != [] then
      assert w.queue == [w.queue[0]] + w.queue[1..];
      Some((w.queue[0], Work(w.queue[1..], w.card)))
    else if w.card != {} then
      assert w.card == (w.card - {first}) + {first};
      Some((first, Work([], w.card - {first})))
    else None
  }

  /**
   * `minorGcStep` as written: it pops the front of the mark queue into `now`,
   * then asserts the card table is non-empty and overwrites `now` with its
   * first entry. `None` is the failed assertion.
   */
  function TakeSlotAsWritten(w: Work, first: nat): (r: Option<(nat, Work)>)
    requires w.card != {} ==> first in w.card
    ensures r.None? <==> w.card == {}
    ensures r.Some? ==> r.value.0 == first && r.value.1.card == w.card - {first}
    ensures r.Some? ==> r.value.1.queue == if w.queue == [] then [] else w.queue[1..]
  {
    if w.card == {} then None
    else Some((first, Work(if w.queue == [] then [] else w.queue[1..], w.card - {first})))
  }

  /**
   * With one queued slot and one card: the as-written step processes the card
   * and drops the queued slot, which is then never scanned; the intended step
   * processes the queued slot and keeps the card. With a queued slot and no
   * card the as-written step fails its assertion.
   */
  lemma TakeSlotAsWrittenDropsQueuedSlot()
    ensures var w := Work([PageSize], {2 * PageSize});
      && TakeSlotAsWritten(w, 2 * PageSize) == Some((2 * PageSize, Work([], {})))
      && PageSize !in Pending(TakeSlotAsWritten(w, 2 * PageSize).value.1) && PageSize in Pending(w)
      && TakeSlot(w, 2 * PageSize) == Some((PageSize, Work([], {2 * PageSize})))
    ensures TakeSlotAsWritten(Work([PageSize], {}), 0) == None && TakeSlot(Work([PageSize], {}), 0).Some?
  {
    var w := Work([PageSize], {2 * PageSize});
    assert w.card - {2 * PageSize} == {};
    assert Work([PageSize], {}).queue[1..] == [];
  }

  // ---------------------------------------------------------------------------
  // What a minor collection step does with the slot it took

  /** Every object on a nursery page carries `IsMinorObject` (what `moveMinor` asserts). */
  predicate MinorFlagged(pages: map<nat, MemType>, m: RawMemory) {
    forall o :: o in m.headers && IsMinorPage(pages, o) ==> HasFlag(m.headers[o], IsMinorObject)
  }

  /** The four cases of `minorGcStep`, in the order it tests them. */
  datatype SlotCase =
    | NotMinor   // the slot does not point into the nursery
    | Forwarded  // its target has moved: heal the slot
    | InTarget   // its target lies on a page filled during this collection
    | Evacuated  // move the target and scan the copy

  /** The case `minorGcStep` is in for slot `now`. */
  function ClassifySlot(pages: map<nat, MemType>, targets: set<nat>, m: RawMemory, objSize: nat -> nat,
                        now: nat): (c: SlotCase)
    requires WellFormed(m, objSize) && now in m.words && 0 !in pages
    ensures c != NotMinor <==> IsMinorPage(pages, m.words[now])
    ensures c != NotMinor ==> m.words[now] in m.headers
    ensures c == Forwarded <==> c != NotMinor && HasFlag(m.headers[m.words[now]], IsMoved)
    ensures c == Evacuated ==> !HasFlag(m.headers[m.words[now]], IsMoved) && PageId(m.words[now]) !in targets
  {
    var t := m.words[now];
    if !IsMinorPage(pages, t) then NotMinor
    else if HasFlag(m.headers[t], IsMoved) then Forwarded
    else if PageId(t) in targets then InTarget
    else Evacuated
  }

  /** Healing a forwarded slot stores exactly what the read barrier would return for it. */
  lemma ForwardedSlotHealsLikeReadBarrier(pages: map<nat, MemType>, targets: set<nat>, m: RawMemory,
                                          objSize: nat -> nat, now: nat)
    requires WellFormed(m, objSize) && now in m.words && 0 !in pages
    requires ClassifySlot(pages, targets, m, objSize, now) == Forwarded
    ensures m.words[now] in m.words
    ensures ReadBarrier(MinorGC, m, objSize, now) == m.words[m.words[now]]
  {
    WordZeroExists(m, m.words[now], objSize);
  }

  /**
   * After the object at `o` is evacuated, reading through the read barrier
   * any other slot that pointed at it yields the copy.
   */
  lemma ReadBarrierFollowsEvacuation(pages: map<nat, MemType>, m: RawMemory, o: nat, objSize: nat -> nat, s: nat, e: Allocation)
    requires WellFormed(m, objSize) && o in m.headers && (forall pg :: pg in pages ==> pg < m.top)
    requires s in m.words && s != o && m.words[s] == o
    requires e == Evacuate(pages, m, o, objSize)
    ensures s in e.mem.words && ReadBarrier(MinorGC, e.mem, objSize, s) == e.ptr
  {
    assert e.mem.words[s] == o && o != 0;
    assert HasFlag(e.mem.headers[o], IsMoved);
  }

  /** Allocation keeps every nursery object flagged, given the header it stores is flagged when the region is the nursery. */
  lemma AllocateKeepsMinorFlagged(pages: map<nat, MemType>, m: RawMemory, region: MemType, h: ObjHeader,
                                  objSize: nat -> nat, a: Allocation)
    requires WellFormed(m, objSize) && MaskFits(h, objSize) && (forall pg :: pg in pages ==> pg < m.top)
    requires MinorFlagged(pages, m) && (region == Minor ==> HasFlag(h, IsMinorObject))
    requires a == Allocate(pages, m, region, h, objSize)
    ensures MinorFlagged(a.pages, a.mem)
  {
    forall o | o in a.mem.headers && IsMinorPage(a.pages, o) ensures HasFlag(a.mem.headers[o], IsMinorObject) {
      if o != a.ptr {
        assert PageId(o) <= o < m.top;
        assert PageId(o) in pages;
      }
    }
  }

  /** Evacuation keeps every nursery object flagged. */
  lemma EvacuateKeepsMinorFlagged(pages: map<nat, MemType>, m: RawMemory, o: nat, objSize: nat -> nat, e: Allocation)
    requires WellFormed(m, objSize) && o in m.headers && (forall pg :: pg in pages ==> pg < m.top)
    requires MinorFlagged(pages, m)
    requires e == Evacuate(pages, m, o, objSize)
    ensures MinorFlagged(e.pages, e.mem)
  {
    var h := m.headers[o];
    forall o' | o' in e.mem.headers && IsMinorPage(e.pages, o') ensures HasFlag(e.mem.headers[o'], IsMinorObject) {
      if o' == e.ptr {
        assert EvacuationRegion(h) == Minor;
      } else {
        assert PageId(o') <= o' < m.top;
        assert PageId(o') in pages;
        if o' == o {
          assert HasFlag(h, IsMinorObject);
        }
      }
    }
  }

  /**
   * The collector's invariant over its state: memory is well formed, every
   * page lies in managed memory, huge objects, card-table entries and queued
   * slots exist, and every object on a nursery page carries the minor flag.
   */
  ghost predicate CollectorInvariant(pages: map<nat, MemType>, huge: set<nat>, m: RawMemory, card: set<nat>,
                                     queue: seq<nat>, objSize: nat -> nat) {
    && WellFormed(m, objSize)
    && (forall pg :: pg in pages ==> PageSize <= pg < m.top)
    && huge <= m.headers.Keys
    && card <= m.words.Keys
    && (forall j :: 0 <= j < |queue| ==> queue[j] in m.words)
    && MinorFlagged(pages, m)
  }

  /** Evacuating an object that has not moved keeps the collector's invariant, and the copy has not moved. */
  lemma EvacuateKeepsValid(pages: map<nat, MemType>, m: RawMemory, o: nat, objSize: nat -> nat,
                           huge: set<nat>, card: set<nat>, queue: seq<nat>, e: Allocation)
    requires CollectorInvariant(pages, huge, m, card, queue, objSize)
    requires o in m.headers && !HasFlag(m.headers[o], IsMoved)
    requires e == Evacuate(pages, m, o, objSize)
    ensures CollectorInvariant(e.pages, huge, e.mem, card, queue, objSize)
    ensures !HasFlag(e.mem.headers[e.ptr], IsMoved) && m.words.Keys <= e.mem.words.Keys
  {
    // Only the contracts of `Evacuate` and the lemmas about it are needed here.
    hide Evacuate;
    EvacuatePages(pages, m, o, objSize, e);
    EvacuateKeepsWords(pages, m, o, objSize, e);
    EvacuateKeepsMinorFlagged(pages, m, o, objSize, e);
    assert e.ptr != o;
  }

  /** The part of the collector's state a step of a minor collection changes, besides the card table. */
  datatype SlotState = SlotState(pages: map<nat, MemType>, targets: set<nat>, mem: RawMemory, queue: seq<nat>)

  /**
   * What `minorGcStep` does with the slot `now` once it is taken, by the case
   * `ClassifySlot` finds: nothing for a slot outside the nursery or into a
   * page filled during this collection; for a moved target, the slot healed
   * with the forwarding word; otherwise the target evacuated as `Evacuate`
   * describes, the slot pointed at the copy, the copy's page recorded when it
   * stays in the nursery, and the copy's pointer slots queued.
   */
  function SlotStep(s: SlotState, objSize: nat -> nat, now: nat): (r: SlotState)
    requires WellFormed(s.mem, objSize) && now in s.mem.words
    requires forall pg :: pg in s.pages ==> PageSize <= pg < s.mem.top
    ensures |s.queue| <= |r.queue| && r.queue[..|s.queue|] == s.queue
    ensures s.targets <= r.targets && s.pages.Keys <= r.pages.Keys
  {
    var t := s.mem.words[now];
    match ClassifySlot(s.pages, s.targets, s.mem, objSize, now)
    case NotMinor => s
    case InTarget => s
    case Forwarded =>
      WordZeroExists(s.mem, t, objSize);
      s.(mem := s.mem.(words := s.mem.words[now := s.mem.words[t]]))
    case Evacuated =>
      var h := s.mem.headers[t];
      var e := Evacuate(s.pages, s.mem, t, objSize);
      EvacuatePages(s.pages, s.mem, t, objSize, e);
      SlotState(e.pages, if EvacuationRegion(h) == Minor then s.targets + {PageId(e.ptr)} else s.targets,
                e.mem.(words := e.mem.words[now := e.ptr]), s.queue + PointerMembers(e.ptr, EvacuatedHeader(h)))
  }

  /** A step on one slot keeps the collector's invariant, whichever case it takes. */
  lemma SlotStepKeepsInvariant(s: SlotState, huge: set<nat>, card: set<nat>, objSize: nat -> nat, now: nat)
    requires CollectorInvariant(s.pages, huge, s.mem, card, s.queue, objSize) && now in s.mem.words
    ensures var r := SlotStep(s, objSize, now);
      CollectorInvariant(r.pages, huge, r.mem, card, r.queue, objSize)
  {
    var t := s.mem.words[now];
    match ClassifySlot(s.pages, s.targets, s.mem, objSize, now)
    case NotMinor =>
    case InTarget =>
    case Forwarded =>
      WordZeroExists(s.mem, t, objSize);
      StoreKeepsWellFormed(s.mem, now, s.mem.words[t], objSize);
    case Evacuated =>
      var h := s.mem.headers[t];
      var e := Evacuate(s.pages, s.mem, t, objSize);
      EvacuateKeepsValid(s.pages, s.mem, t, objSize, huge, card, s.queue, e);
      StoreKeepsWellFormed(e.mem, now, e.ptr, objSize);
      var m' := e.mem.(words := e.mem.words[now := e.ptr]);
      var q := PointerMembers(e.ptr, EvacuatedHeader(h));
      assert HasSlots(e.mem, e.ptr, objSize) && MaskFits(e.mem.headers[e.ptr], objSize);
      forall j | 0 <= j < |q|
        ensures q[j] in m'.words
      {
        MaskBitFits(EvacuatedHeader(h), objSize, PointerIndices(EvacuatedHeader(h))[j]);
      }
      assert SlotStep(s, objSize, now) == SlotState(e.pages, SlotStep(s, objSize, now).targets, m', s.queue + q);
  }

  /**
   * One `minorGcStep` from `s` and the card table `card` to `s'` and `card'`,
   * having taken the slot `taken`: with no work left, nothing changes;
   * otherwise the front of the mark queue, or with an empty queue some card,
   * leaves the pending work and `SlotStep` is applied to it.
   */
  ghost predicate MinorStepped(s: SlotState, card: set<nat>, objSize: nat -> nat, taken: Option<nat>,
                               s': SlotState, card': set<nat>)
    requires WellFormed(s.mem, objSize) && (forall pg :: pg in s.pages ==> PageSize <= pg < s.mem.top)
    requires card <= s.mem.words.Keys && (forall j :: 0 <= j < |s.queue| ==> s.queue[j] in s.mem.words)
  {
    match taken
    case None => s.queue == [] && card == {} && s' == s && card' == card
    case Some(now) =>
      && (if s.queue != [] then now == s.queue[0] && card' == card else now in card && card' == card - {now})
      && s' == SlotStep(s.(queue := if s.queue != [] then s.queue[1..] else []), objSize, now)
  }

  /**
   * The young objects a minor collection still has to evacuate: on a nursery
   * page that was not filled during this collection, and not yet moved.
   */
  ghost function Unevacuated(s: SlotState): set<nat> {
    set o | o in s.mem.headers && IsMinorPage(s.pages, o) && !HasFlag(s.mem.headers[o], IsMoved) && PageId(o) !in s.targets
  }

  /**
   * A bound on the steps a minor collection has left: one per pending slot,
   * and nine per object still to evacuate, one for the slot that reaches it
   * and one for each of the at most eight pointer slots its copy queues.
   */
  ghost function StepsLeft(s: SlotState, card: set<nat>): nat {
    |s.queue| + |card| + 9 * |Unevacuated(s)|
  }

  /**
   * Processing a slot never raises the bound: a slot that is not evacuated
   * leaves the objects to evacuate and the queue as they were, and an
   * evacuation removes its object from them while queueing at most eight slots.
   */
  lemma SlotStepShrinks(s: SlotState, objSize: nat -> nat, now: nat)
    requires WellFormed(s.mem, objSize) && now in s.mem.words
    requires forall pg :: pg in s.pages ==> PageSize <= pg < s.mem.top
    ensures var r := SlotStep(s, objSize, now);
      |r.queue| + 9 * |Unevacuated(r)| <= |s.queue| + 9 * |Unevacuated(s)|
  {
    var t := s.mem.words[now];
    var r := SlotStep(s, objSize, now);
    hide Evacuate, Unevacuated;
    match ClassifySlot(s.pages, s.targets, s.mem, objSize, now)
    case NotMinor =>
    case InTarget =>
    case Forwarded =>
      UnevacuatedIgnoresWords(s, r);
    case Evacuated =>
      var h := s.mem.headers[t];
      var e := Evacuate(s.pages, s.mem, t, objSize);
      var q := PointerMembers(e.ptr, EvacuatedHeader(h));
      assert r.queue == s.queue + q && r.pages == e.pages && r.mem.headers == e.mem.headers;
      EvacuateRemovesObject(s, objSize, t, e, r);
  }

  /** Which objects remain to be evacuated does not depend on the words of memory or on the queue. */
  lemma UnevacuatedIgnoresWords(s: SlotState, r: SlotState)
    requires r.pages == s.pages && r.targets == s.targets && r.mem.headers == s.mem.headers
    ensures Unevacuated(r) == Unevacuated(s)
  {
  }

  /** Evacuating an object takes it off `Unevacuated`, and its copy is never on it. */
  lemma EvacuateRemovesObject(s: SlotState, objSize: nat -> nat, t: nat, e: Allocation, r: SlotState)
    requires WellFormed(s.mem, objSize) && (forall pg :: pg in s.pages ==> PageSize <= pg < s.mem.top)
    requires t in Unevacuated(s) && e == Evacuate(s.pages, s.mem, t, objSize)
    requires r.pages == e.pages && r.mem.headers == e.mem.headers
    requires r.targets == if EvacuationRegion(s.mem.headers[t]) == Minor then s.targets + {PageId(e.ptr)} else s.targets
    ensures |Unevacuated(r)| < |Unevacuated(s)|
  {
    hide Evacuate;
    var h := s.mem.headers[t];
    EvacuatePages(s.pages, s.mem, t, objSize, e);
    forall o | o in Unevacuated(r) ensures o in Unevacuated(s) - {t} {
      assert o != t by {
        assert HasFlag(AddFlag(h, IsMoved), IsMoved);
      }
      assert o != e.ptr by {
        if EvacuationRegion(h) != Minor {
          assert !IsMinorPage(e.pages, e.ptr);
        }
      }
      assert PageId(o) <= o < s.mem.top;
    }
    SubsetCard(Unevacuated(r), Unevacuated(s) - {t});
  }

  /**
   * Every step that takes a slot lowers `StepsLeft`, so a minor collection
   * finishes after at most `StepsLeft` steps of the state it starts from.
   */
  lemma MinorStepShrinks(s: SlotState, card: set<nat>, objSize: nat -> nat, now: nat, s': SlotState, card': set<nat>)
    requires WellFormed(s.mem, objSize) && (forall pg :: pg in s.pages ==> PageSize <= pg < s.mem.top)
    requires card <= s.mem.words.Keys && (forall j :: 0 <= j < |s.queue| ==> s.queue[j] in s.mem.words)
    requires MinorStepped(s, card, objSize, Some(now), s', card')
    ensures StepsLeft(s', card') < StepsLeft(s, card)
  {
    var s0 := s.(queue := if s.queue != [] then s.queue[1..] else []);
    if s.queue != [] {
      assert now == s.queue[0] && now in s.mem.words;
    } else {
      assert |card'| == |card| - 1;
    }
    SlotStepShrinks(s0, objSize, now);
    assert Unevacuated(s0) == Unevacuated(s);
  }

  /**
   * A run of minor-collection steps: `states[i + 1]` follows `states[i]` by
   * taking and processing the slot `slots[i]`, every state satisfying the
   * collector's invariant.
   */
  ghost predicate StepRun(huge: set<nat>, objSize: nat -> nat, states: seq<(SlotState, set<nat>)>, slots: seq<nat>)
    decreases |slots|
  {
    && |states| == |slots| + 1
    && CollectorInvariant(states[0].0.pages, huge, states[0].0.mem, states[0].1, states[0].0.queue, objSize)
    && (|slots| > 0 ==>
          && MinorStepped(states[0].0, states[0].1, objSize, Some(slots[0]), states[1].0, states[1].1)
          && StepRun(huge, objSize, states[1..], slots[1..]))
  }

  /** Termination: no run of steps that each take a slot is longer than `StepsLeft` of its first state. */
  lemma {:induction false} MinorCollectionTerminates(huge: set<nat>, objSize: nat -> nat,
                                                     states: seq<(SlotState, set<nat>)>, slots: seq<nat>)
    requires StepRun(huge, objSize, states, slots)
    ensures |slots| <= StepsLeft(states[0].0, states[0].1)
    decreases |slots|
  {
    if |slots| > 0 {
      MinorStepShrinks(states[0].0, states[0].1, objSize, slots[0], states[1].0, states[1].1);
      MinorCollectionTerminates(huge, objSize, states[1..], slots[1..]);
    }
  }

  // ---------------------------------------------------------------------------
  // The memory manager

  /** `Memory`: the collector state of src/gc/mem.hpp. */
  class Memory {
    var stage: Stage
    /** `pageMemType`: region of each page, keyed by page id (the page's base address). */
    var pageMemType: map<nat, MemType>
    /** `hugeMemType`: base addresses of huge objects. */
    var hugeMemType: set<nat>
    /** Page ids whose `MinorPageInfo::isMinorGcTarget` is set. */
    var minorGcTargets: set<nat>
    var mem: RawMemory
    var cardTable: set<nat>
    var markQueue: seq<nat>
    var root: seq<nat>
    const objSize: nat -> nat
    const headerPrototype: nat -> ObjHeader

    ghost predicate Valid()
      reads this
    {
      CollectorInvariant(pageMemType, hugeMemType, mem, cardTable, markQueue, objSize)
    }

    constructor (objSize: nat -> nat, headerPrototype: nat -> ObjHeader)
      ensures Valid() && stage == Normal
      ensures pageMemType == map[] && hugeMemType == {} && minorGcTargets == {}
      ensures mem == RawMemory(map[], map[], PageSize)
      ensures cardTable == {} && markQueue == [] && root == []
      ensures this.objSize == objSize && this.headerPrototype == headerPrototype
    {
      stage := Normal;
      pageMemType := map[];
      hugeMemType := {};
      minorGcTargets := {};
      mem := RawMemory(map[], map[], PageSize);
      cardTable := {};
      markQueue := [];
      root := [];
      this.objSize := objSize;
      this.headerPrototype := headerPrototype;
    }

    /**
     * `allocHeap(t)`: a new object of type `t` in the region `AllocRegion`
     * chooses, its header the prototype with `IsMinorObject` set exactly for
     * the nursery, its payload words null.
     */
    method AllocHeap(t: nat) returns (p: nat)
      requires Valid() && MaskFits(headerPrototype(t), objSize)
      modifies this
      ensures Valid()
      ensures var h := headerPrototype(t);
        var region := AllocRegion(h, objSize);
        && p != 0 && p !in old(mem.headers)
        && mem.headers == old(mem.headers)[p := AllocatedHeader(h, region)]
        && PageId(p) in pageMemType && pageMemType[PageId(p)] == region
        && (forall pg :: pg in old(pageMemType) ==> pg in pageMemType && pageMemType[pg] == old(pageMemType)[pg])
        && (forall w :: w in old(mem.words) ==> w in mem.words && mem.words[w] == old(mem.words)[w])
        && (forall i :: 0 <= i < Reserved(h, objSize) ==> Field(p, i) in mem.words && mem.words[Field(p, i)] == 0)
      ensures stage == old(stage) && hugeMemType == old(hugeMemType) && minorGcTargets == old(minorGcTargets)
      ensures cardTable == old(cardTable) && markQueue == old(markQueue) && root == old(root)
    {
      var h := headerPrototype(t);
      var region := AllocRegion(h, objSize);
      var stored := AllocatedHeader(h, region);
      assert MaskFits(stored, objSize) by {
        assert Reserved(stored, objSize) == Reserved(h, objSize);
      }
      var a := Allocate(pageMemType, mem, region, stored, objSize);
      AllocateKeepsMinorFlagged(pageMemType, mem, region, stored, objSize, a);
      pageMemType := a.pages;
      mem := a.mem;
      p := a.ptr;
    }

    /** `registerGcRoot(p)`: appends `p` to the roots. */
    method RegisterGcRoot(p: nat)
      requires Valid()
      modifies this
      ensures Valid() && root == old(root) + [p]
      ensures stage == old(stage) && pageMemType == old(pageMemType) && hugeMemType == old(hugeMemType)
      ensures minorGcTargets == old(minorGcTargets) && mem == old(mem)
      ensures cardTable == old(cardTable) && markQueue == old(markQueue)
    {
      root := root + [p];
    }

    /**
     * Entering a minor collection (the transition the life-cycle comment
     * describes; nothing in the class performs it): stage `MinorGC`, no page
     * marked as filled by this collection yet.
     */
    method BeginMinorGc()
      requires Valid() && stage == Normal
      modifies this
      ensures Valid() && stage == MinorGC && minorGcTargets == {}
      ensures pageMemType == old(pageMemType) && hugeMemType == old(hugeMemType) && mem == old(mem)
      ensures cardTable == old(cardTable) && markQueue == old(markQueue) && root == old(root)
    {
      stage := MinorGC;
      minorGcTargets := {};
    }

    /**
     * `writeWithBarrier(dst, src)`: stores `src` into slot `dst` and records
     * `dst` in the card table exactly when `BarrierRecords` holds.
     */
    method WriteWithBarrier(dst: nat, src: nat)
      requires Valid() && dst in mem.words && (src == 0 || src in mem.headers)
      modifies this
      ensures Valid()
      ensures mem == old(mem).(words := old(mem.words)[dst := src])
      ensures cardTable == RecordStore(old(cardTable), pageMemType, dst, src)
      ensures stage == old(stage) && pageMemType == old(pageMemType) && hugeMemType == old(hugeMemType)
      ensures minorGcTargets == old(minorGcTargets) && markQueue == old(markQueue) && root == old(root)
    {
      StoreKeepsWellFormed(mem, dst, src, objSize);
      if src == 0 {
        mem := mem.(words := mem.words[dst := src]);
        return;
      }
      if !IsMinorPage(pageMemType, dst) {
        if IsMinorPage(pageMemType, src) {
          PostWrite(dst, src);
        }
      }
      mem := mem.(words := mem.words[dst := src]);
    }

    /** `postWrite(dst, src)`: adds `dst` to the card table. */
    method PostWrite(dst: nat, src: nat)
      requires Valid() && dst in mem.words
      modifies this
      ensures Valid() && cardTable == old(cardTable) + {dst}
      ensures stage == old(stage) && pageMemType == old(pageMemType) && hugeMemType == old(hugeMemType)
      ensures minorGcTargets == old(minorGcTargets) && mem == old(mem)
      ensures markQueue == old(markQueue) && root == old(root)
    {
      cardTable := cardTable + {dst};
    }

    /**
     * `readWithBarrier(src)`: returns what `ReadBarrier` computes and leaves
     * that value in the slot (self-healing). Unlike the source, a null slot is
     * returned without reading a header (see `ReadBarrierAsWritten`).
     */
    method ReadWithBarrier(src: nat) returns (r: nat)
      requires Valid() && src in mem.words
      modifies this
      ensures Valid()
      ensures r == ReadBarrier(old(stage), old(mem), objSize, src)
      ensures mem == old(mem).(words := old(mem.words)[src := r])
      ensures stage == old(stage) && pageMemType == old(pageMemType) && hugeMemType == old(hugeMemType)
      ensures minorGcTargets == old(minorGcTargets) && cardTable == old(cardTable)
      ensures markQueue == old(markQueue) && root == old(root)
    {
      r := mem.words[src];
      if stage != MinorGC || r == 0 {
        assert mem.words[src := r] == mem.words;
        return;
      }
      if HasFlag(mem.headers[r], IsMoved) {
        WordZeroExists(mem, r, objSize);
        r := mem.words[r];
        StoreKeepsWellFormed(mem, src, r, objSize);
        mem := mem.(words := mem.words[src := r]);
      } else {
        assert mem.words[src := r] == mem.words;
      }
    }

    /** `minorGcFinished`: no card and no queued slot left. */
    function MinorGcFinished(): (r: bool)
      reads this
      ensures r <==> Pending(Work(markQueue, cardTable)) == multiset{}
    {
      PendingEmpty(Work(markQueue, cardTable));
      cardTable == {} && markQueue == []
    }

    /**
     * `singleThreadGcStep`: finished with nothing to do outside a collection,
     * unfinished during a major collection (which has no code), and during a
     * minor collection one `minorGcStep` followed by `minorGcFinished`.
     */
    method SingleThreadGcStep() returns (finished: bool, ghost taken: Option<nat>)
      requires Valid()
      modifies this
      ensures Valid() && stage == old(stage)
      ensures old(stage) == Normal ==> finished && unchanged(this)
      ensures old(stage) == MajorGC ==> !finished && unchanged(this)
      ensures old(stage) == MinorGC ==>
        && MinorStepped(SlotState(old(pageMemType), old(minorGcTargets), old(mem), old(markQueue)), old(cardTable),
                        objSize, taken, SlotState(pageMemType, minorGcTargets, mem, markQueue), cardTable)
        && finished == (cardTable == {} && markQueue == [])
      ensures old(stage) == MinorGC && (old(cardTable) != {} || old(markQueue) != []) ==>
        StepsLeft(SlotState(pageMemType, minorGcTargets, mem, markQueue), cardTable)
          < StepsLeft(SlotState(old(pageMemType), old(minorGcTargets), old(mem), old(markQueue)), old(cardTable))
    {
      taken := None;
      if stage == MinorGC {
        taken := MinorGcStep();
        if taken.Some? {
          MinorStepShrinks(SlotState(old(pageMemType), old(minorGcTargets), old(mem), old(markQueue)), old(cardTable),
                           objSize, taken.value, SlotState(pageMemType, minorGcTargets, mem, markQueue), cardTable);
        }
        finished := MinorGcFinished();
      } else if stage == MajorGC {
        finished := false;
      } else {
        finished := true;
      }
    }

    /**
     * `minorGcStep`, with the slot taken as `TakeSlot` intends (see
     * `TakeSlotAsWritten` for the source's order): takes one slot off the
     * pending work and processes it with `ProcessSlot`. With no work left it
     * does nothing.
     */
    method MinorGcStep() returns (ghost taken: Option<nat>)
      requires Valid() && stage == MinorGC
      modifies this
      ensures Valid() && stage == old(stage) && root == old(root) && hugeMemType == old(hugeMemType)
      ensures MinorStepped(SlotState(old(pageMemType), old(minorGcTargets), old(mem), old(markQueue)), old(cardTable),
                           objSize, taken, SlotState(pageMemType, minorGcTargets, mem, markQueue), cardTable)
    {
      var first: nat := 0;
      if cardTable != {} {
        first :| first in cardTable;
      }
      match TakeSlot(Work(markQueue, cardTable), first)
      case None =>
        taken := None;
      case Some((now, rest)) =>
        taken := Some(now);
        assert now in mem.words by {
          if markQueue != [] {
            assert markQueue[0] in mem.words;
          }
        }
        markQueue := rest.queue;
        cardTable := rest.card;
        ProcessSlot(now);
    }

    /**
     * The body of `minorGcStep` after the slot `now` is taken: by the case
     * `ClassifySlot` finds, nothing, healing the slot with the forwarding
     * word, nothing, or evacuating the target, storing the copy's address in
     * the slot and queueing the copy's pointer slots.
     */
    method ProcessSlot(now: nat)
      requires Valid() && stage == MinorGC && now in mem.words
      modifies this
      ensures Valid() && stage == old(stage) && root == old(root) && hugeMemType == old(hugeMemType)
      ensures cardTable == old(cardTable)
      ensures |old(markQueue)| <= |markQueue| && markQueue[..|old(markQueue)|] == old(markQueue)
      ensures SlotState(pageMemType, minorGcTargets, mem, markQueue)
        == SlotStep(SlotState(old(pageMemType), old(minorGcTargets), old(mem), old(markQueue)), objSize, now)
    {
      // Only the contracts of `Evacuate` and the lemmas about it are needed here.
      hide Evacuate;
      var t := mem.words[now];
      if !IsMinorPage(pageMemType, t) {
        return;
      }
      if HasFlag(mem.headers[t], IsMoved) {
        WordZeroExists(mem, t, objSize);
        StoreKeepsWellFormed(mem, now, mem.words[t], objSize);
        mem := mem.(words := mem.words[now := mem.words[t]]);
        return;
      }
      if PageId(t) in minorGcTargets {
        return;
      }
      assert HasFlag(mem.headers[t], IsMinorObject);
      var p := MoveMinor(t);
      StoreKeepsWellFormed(mem, now, p, objSize);
      mem := mem.(words := mem.words[now := p]);
      PushPointerMembers(p);
    }

    /**
     * `moveMinor(o)`: evacuates the young object at `o` as `Evacuate`
     * describes, copying its payload word by word; a copy that stays in the
     * nursery lands on a page marked as filled by this collection.
     */
    method MoveMinor(o: nat) returns (p: nat)
      requires Valid() && o in mem.headers
      requires !HasFlag(mem.headers[o], IsMoved) && HasFlag(mem.headers[o], IsMinorObject)
      modifies this
      ensures Valid()
      ensures var e := Evacuate(old(pageMemType), old(mem), o, objSize);
        p == e.ptr && pageMemType == e.pages && mem == e.mem
      ensures minorGcTargets == if EvacuationRegion(old(mem.headers)[o]) == Minor
                                then old(minorGcTargets) + {PageId(p)} else old(minorGcTargets)
      ensures p in mem.headers && mem.headers[p] == EvacuatedHeader(old(mem.headers)[o])
      ensures !HasFlag(mem.headers[p], IsMoved) && old(mem).words.Keys <= mem.words.Keys
      ensures stage == old(stage) && hugeMemType == old(hugeMemType) && root == old(root)
      ensures cardTable == old(cardTable) && markQueue == old(markQueue)
    {
      // Only the contract of `EvacuateObject` is needed here, not the definition of `Evacuate`.
      hide Evacuate;
      var pages, m, huge, card, queue := pageMemType, mem, hugeMemType, cardTable, markQueue;
      var h := m.headers[o];
      var a := EvacuateObject(pages, m, o, objSize, huge, card, queue);
      p := a.ptr;
      pageMemType := a.pages;
      mem := a.mem;
      if EvacuationRegion(h) == Minor {
        minorGcTargets := minorGcTargets + {PageId(p)};
      }
    }

    /**
     * The allocation and copy of `moveMinor`: a fresh object in the region
     * `EvacuationRegion` picks, its payload copied word by word, and the old
     * object flagged as moved with the copy's address in its first word.
     */
    static method EvacuateObject(pages: map<nat, MemType>, m: RawMemory, o: nat, objSize: nat -> nat,
                                 huge: set<nat>, card: set<nat>, queue: seq<nat>) returns (a: Allocation)
      requires CollectorInvariant(pages, huge, m, card, queue, objSize)
      requires o in m.headers && !HasFlag(m.headers[o], IsMoved)
      ensures a == Evacuate(pages, m, o, objSize)
      ensures CollectorInvariant(a.pages, huge, a.mem, card, queue, objSize)
      ensures a.ptr in a.mem.headers && a.mem.headers[a.ptr] == EvacuatedHeader(m.headers[o])
      ensures !HasFlag(a.mem.headers[a.ptr], IsMoved) && m.words.Keys <= a.mem.words.Keys
    {
      var h := m.headers[o];
      var n := WordCount(h, objSize);
      assert HasSlots(m, o, objSize);
      EvacuatedMaskFits(h, objSize);
      var al := Allocate(pages, m, EvacuationRegion(h), EvacuatedHeader(h), objSize);
      assert m.top < al.ptr;
      var words := CopyPayload(al.mem.words, o, al.ptr, n);
      a := Allocation(al.pages, RawMemory(al.mem.headers[o := AddFlag(h, IsMoved)], words[o := al.ptr], al.mem.top), al.ptr);
      EvacuateKeepsValid(pages, m, o, objSize, huge, card, queue, a);
    }

    /**
     * The copy loop of `moveMinor`: words `0 .. n-1` of `o` stored, in order,
     * into the same words of `p`, which lies past every word it reads.
     */
    static method CopyPayload(w: map<nat, nat>, o: nat, p: nat, n: nat) returns (words: map<nat, nat>)
      requires forall i :: 0 <= i < n ==> Field(o, i) in w && Field(p, i) in w
      requires forall i :: 0 <= i < n ==> Field(o, i) < p
      ensures words == CopyWords(w, w, o, p, n)
    {
      assert CopyWords(w, w, o, p, 0) == w;
      hide CopyWords;
      words := w;
      var i := 0;
      while i < n
        invariant 0 <= i <= n
        invariant words == CopyWords(w, w, o, p, i)
      {
        CopyWordsExtend(w, o, p, i);
        words := words[Field(p, i) := words[Field(o, i)]];
        i := i + 1;
      }
    }

    /** One more iteration of the copy loop: the source word it reads has not been overwritten yet. */
    static lemma CopyWordsExtend(w: map<nat, nat>, o: nat, p: nat, i: nat)
      requires forall k :: 0 <= k <= i ==> Field(o, k) in w && Field(p, k) in w
      requires Field(o, i) < p
      ensures CopyWords(w, w, o, p, i + 1)
        == CopyWords(w, w, o, p, i)[Field(p, i) := CopyWords(w, w, o, p, i)[Field(o, i)]]
    {
    }

    /**
     * `callWithPointerMember(p, f)`: the slots it hands to `f`, in index
     * order: slot `i` of the object at `p` for every set bit `i` of its
     * pointer mask, or none when the object has no pointer members.
     */
    static method PointerSlots(p: nat, h: ObjHeader) returns (q: seq<nat>)
      ensures q == PointerMembers(p, h)
    {
      q := [];
      if !HasFlag(h, HasPointerMember) {
        return;
      }
      var i := 0;
      while i < 8
        invariant 0 <= i <= 8
        invariant q == Fields(p, MaskIndicesBelow(h, i))
      {
        if MaskBit(h, i) {
          assert Fields(p, MaskIndicesBelow(h, i + 1)) == q + [Field(p, i)];
          q := q + [Field(p, i)];
        }
        i := i + 1;
      }
    }

    /** `callWithPointerMember` with the callback of `minorGcStep`: appends the pointer slots of `p` to the mark queue. */
    method PushPointerMembers(p: nat)
      requires Valid() && p in mem.headers && !HasFlag(mem.headers[p], IsMoved)
      modifies this
      ensures Valid()
      ensures markQueue == old(markQueue) + PointerMembers(p, old(mem.headers)[p])
      ensures stage == old(stage) && pageMemType == old(pageMemType) && hugeMemType == old(hugeMemType)
      ensures minorGcTargets == old(minorGcTargets) && mem == old(mem)
      ensures cardTable == old(cardTable) && root == old(root)
    {
      var h := mem.headers[p];
      var q := PointerSlots(p, h);
      assert HasSlots(mem, p, objSize) && MaskFits(h, objSize);
      forall j | 0 <= j < |q|
        ensures q[j] in mem.words
      {
        MaskBitFits(h, objSize, PointerIndices(h)[j]);
      }
      markQueue := markQueue + q;
    }
  }
}

=== FILE: header.dfy ===
/**
 * The 8-byte object header that precedes every managed object (src/defs.hpp).
 *
 * `ObjHeader` is a trivially copyable struct that the collector copies by value
 * (`auto h = getHeader(p)`), so it is a datatype here. Its mutating members
 * (`addFlag`, `removeFlag`, `setColor`) become functions that return the
 * updated header; the update in place happens where the header lives, in the
 * `headers` map of the memory manager.
 */
module ObjectHeader {

  /** Unsigned machine integers of the widths the header uses. */
  type U8 = x: int | 0 <= x < 0x100
  type U32 = x: int | 0 <= x < 0x1_0000_0000

  /** `ObjHeader::Flags`: the five flag bits of the `flag` byte. */
  datatype Flag = HasPointerMember | HasFinalizer | HasNativeScanner | IsMoved | IsMinorObject

  /** The numeric value of each enumerator of `ObjHeader::Flags`. */
  function FlagBit(f: Flag): bv8 {
    match f
    case HasPointerMember => 1
    case HasFinalizer => 2
    case HasNativeScanner => 4
    case IsMoved => 8
    case IsMinorObject => 16
  }

  /** `ObjHeader::Color`: tri-colour marking state of an elder object. */
  datatype Color = White | Gray | Black

  function ColorValue(c: Color): U8 {
    match c
    case White => 0
    case Gray => 1
    case Black => 2
  }

  /**
   * `typeId` identifies the type; `sizeCompressed` is the payload size in
   * 8-byte words, 255 meaning "too big, ask the type metadata"; `ageOrColor`
   * is the age of a minor object or the colour of an elder one; `pointerMask`
   * marks which of the first eight payload words hold pointers.
   */
  datatype ObjHeader = ObjHeader(typeId: U32, sizeCompressed: U8, ageOrColor: U8, flag: bv8, pointerMask: bv8)

  /** The `sizeCompressed` sentinel `u8(-1)`. */
  const BigObjectSize: U8 := 0xFF

  predicate HasFlag(h: ObjHeader, f: Flag) {
    h.flag & FlagBit(f) != 0
  }

  predicate IsBigObject(h: ObjHeader) {
    h.sizeCompressed == BigObjectSize
  }

  /** The mask bit `1 << i` of payload word `i`. */
  function MaskBitValue(i: nat): (r: bv8)
    requires i < 8
    ensures r == (1 as bv8) << i
  {
    if i == 0 then 1 else if i == 1 then 2 else if i == 2 then 4 else if i == 3 then 8
    else if i == 4 then 16 else if i == 5 then 32 else if i == 6 then 64 else 128
  }

  /** Bit `i` of `pointerMask`: payload word `i` holds a pointer. */
  predicate MaskBit(h: ObjHeader, i: nat)
    requires i < 8
  {
    h.pointerMask & MaskBitValue(i) != 0
  }

  /** One more than the index of the highest set bit of `mask` (0 for an empty mask). */
  function MaskExtent(mask: bv8): (n: nat)
    ensures n <= 8
  {
    if mask >= 128 then 8 else if mask >= 64 then 7 else if mask >= 32 then 6 else if mask >= 16 then 5
    else if mask >= 8 then 4 else if mask >= 4 then 3 else if mask >= 2 then 2 else if mask >= 1 then 1 else 0
  }

  /** Every set bit of the mask lies below its extent, and the top one is set. */
  lemma MaskBitBelowExtent(h: ObjHeader, i: nat)
    requires i < 8
    ensures MaskBit(h, i) ==> i < MaskExtent(h.pointerMask)
    ensures MaskExtent(h.pointerMask) == i + 1 ==> MaskBit(h, i)
  {
  }

  /** The flag bits are five distinct single bits. */
  lemma FlagBitsAreDistinctSingleBits(f: Flag, g: Flag)
    ensures FlagBit(f) != 0 && FlagBit(f) & (FlagBit(f) - 1) == 0
    ensures FlagBit(f) == FlagBit(g) <==> f == g
  {
  }

  /** `addFlag` as the callers use it: sets bit `f` and leaves every other bit and field alone. */
  function AddFlag(h: ObjHeader, f: Flag): (r: ObjHeader)
    ensures HasFlag(r, f)
    ensures r.flag & !FlagBit(f) == h.flag & !FlagBit(f)
    ensures forall g :: g != f ==> (HasFlag(r, g) <==> HasFlag(h, g))
    ensures r.(flag := h.flag) == h
  {
    FlagBitsAreDistinctSingleBits(f, f);
    h.(flag := h.flag | FlagBit(f))
  }

  /**
   * `addFlag` as written at src/defs.hpp:85 computes `flag &= f`: it can never
   * turn on a bit that was off, and it turns off every flag other than `f`.
   */
  function AddFlagAsWritten(h: ObjHeader, f: Flag): (r: ObjHeader)
    ensures HasFlag(r, f) <==> HasFlag(h, f)
    ensures forall g :: g != f ==> !HasFlag(r, g)
    ensures r.(flag := h.flag) == h
  {
    h.(flag := h.flag & FlagBit(f))
  }

  /** A header with no flag set shows the difference: the as-written `addFlag` leaves it without `f`. */
  lemma AddFlagAsWrittenCannotSet(f: Flag)
    ensures var h := ObjHeader(0, 1, 0, 0, 0);
      !HasFlag(AddFlagAsWritten(h, f), f) && HasFlag(AddFlag(h, f), f)
  {
  }

  /** `removeFlag` clears exactly bit `f`. */
  function RemoveFlag(h: ObjHeader, f: Flag): (r: ObjHeader)
    ensures !HasFlag(r, f)
    ensures r.flag & !FlagBit(f) == h.flag & !FlagBit(f)
    ensures forall g :: g != f ==> (HasFlag(r, g) <==> HasFlag(h, g))
    ensures r.(flag := h.flag) == h
  {
    h.(flag := h.flag & !FlagBit(f))
  }

  /** `setColor` may only be used on a header that is not a minor object's. */
  function SetColor(h: ObjHeader, c: Color): (r: ObjHeader)
    requires !HasFlag(h, IsMinorObject)
    ensures r.ageOrColor < 3
    ensures r.ageOrColor == 0 <==> c == White
    ensures r.ageOrColor == 2 <==> c == Black
    ensures r.(ageOrColor := h.ageOrColor) == h
  {
    h.(ageOrColor := ColorValue(c))
  }

  /**
   * `getPrototype`: the header a fresh object of the same type starts with:
   * age zero, neither minor nor moved, everything else kept.
   */
  function GetPrototype(h: ObjHeader): (r: ObjHeader)
    ensures r.ageOrColor == 0
    ensures !HasFlag(r, IsMinorObject) && !HasFlag(r, IsMoved)
    ensures forall g :: g != IsMinorObject && g != IsMoved ==> (HasFlag(r, g) <==> HasFlag(h, g))
    ensures r.typeId == h.typeId && r.sizeCompressed == h.sizeCompressed && r.pointerMask == h.pointerMask
    ensures r.flag == h.flag & !(FlagBit(IsMinorObject) | FlagBit(IsMoved))
  {
    RemoveFlag(RemoveFlag(h.(ageOrColor := 0), IsMinorObject), IsMoved)
  }
}

=== FILE: heap.dfy ===
/**
 * What the two memory managers (src/gc/mem.hpp and its earlier variant
 * src/vm/mem.hpp) share: page arithmetic, the region kinds, the size of an
 * object, the region lookup, raw memory with its abstract allocator, the
 * evacuation of one young object and the forwarding step of the read barrier.
 *
 * Addresses are byte addresses; a word (`reg`) is 8 bytes, so payload word `i`
 * of the object at `o` lives at `Field(o, i)`. Raw memory is a word store
 * (slot address to word, 0 being `nullptr`) plus the header word in front of
 * every object, kept in a map keyed by the object pointer.
 */
module HeapLayout {
  import opened Wrappers
  import opened ObjectHeader

  const PageSize: nat := 4096
  const WordSize: nat := 8

  /** Age at which an evacuated object is promoted to the elder generation. */
  const PromotionAge: nat := 5

  /** `Memory::MemType`. */
  datatype MemType = Unmanaged | Minor | Major | Huge | Static

  /** `Memory::Stage`. */
  datatype Stage = Normal | MinorGC | MajorGC

  /** `getPageId` as intended: `ptr & ~(PageSize - 1)`, the address of the page holding `ptr`. */
  function PageId(ptr: nat): (r: nat)
    ensures r % PageSize == 0 && r <= ptr < r + PageSize
  {
    ptr - ptr % PageSize
  }

  /** The mask as written, `!(PageSize - 1)`: logical negation of a non-zero value, so 0. */
  const PageMaskAsWritten: nat := if !(PageSize - 1 != 0) then 1 else 0

  /** `getPageId` as written: `PageMaskAsWritten & ptr`, which for a mask of 0 or 1 is this product. */
  function PageIdAsWritten(ptr: nat): (r: nat)
    ensures r == 0
  {
    PageMaskAsWritten * (ptr % 2)
  }

  /** Addresses a page apart have different page ids; as written they all share page id 0. */
  lemma PageIdAsWrittenCollapsesPages(ptr: nat)
    ensures PageId(ptr) != PageId(ptr + PageSize)
    ensures PageIdAsWritten(ptr) == PageIdAsWritten(ptr + PageSize)
  {
  }

  /**
   * `getSize`: payload bytes, from the header unless the object is big, in
   * which case the type's metadata answers. A size taken from the header is
   * a whole number of words and always below one page.
   */
  function SizeBytes(h: ObjHeader, objSize: nat -> nat): (s: nat)
    ensures IsBigObject(h) ==> s == objSize(h.typeId)
    ensures !IsBigObject(h) ==> s % WordSize == 0 && s < BigObjectSize * WordSize < PageSize
  {
    if !IsBigObject(h) then h.sizeCompressed * WordSize else objSize(h.typeId)
  }

  /** Number of payload words of an object. */
  function WordCount(h: ObjHeader, objSize: nat -> nat): nat {
    SizeBytes(h, objSize) / WordSize
  }

  /** Payload words an object occupies: at least one, for the forwarding word. */
  function Reserved(h: ObjHeader, objSize: nat -> nat): (n: nat)
    ensures n >= 1 && n >= WordCount(h, objSize)
  {
    if WordCount(h, objSize) == 0 then 1 else WordCount(h, objSize)
  }

  /** Address of payload word `i` of the object at `o`: `o + i` in `reg*` arithmetic. */
  function Field(o: nat, i: nat): nat {
    o + WordSize * i
  }

  /** `moveMinor` as written copies `getSize(h)` words, which is the size in bytes. */
  function CopyCountAsWritten(h: ObjHeader, objSize: nat -> nat): nat {
    SizeBytes(h, objSize)
  }

  /**
   * The as-written copy count is eight times the object's word count, so for
   * any non-empty small object it reads and writes past the end of the payload.
   */
  lemma CopyCountAsWrittenOverruns(h: ObjHeader, objSize: nat -> nat)
    requires !IsBigObject(h) && h.sizeCompressed > 0
    ensures WordCount(h, objSize) == h.sizeCompressed
    ensures CopyCountAsWritten(h, objSize) == WordSize * WordCount(h, objSize) > WordCount(h, objSize)
  {
  }

  /** Every pointer bit of the mask designates a word the object has. */
  predicate MaskFits(h: ObjHeader, objSize: nat -> nat) {
    HasFlag(h, HasPointerMember) ==> MaskExtent(h.pointerMask) <= Reserved(h, objSize)
  }

  /** A pointer slot the mask reports is a payload word the object has. */
  lemma MaskBitFits(h: ObjHeader, objSize: nat -> nat, i: nat)
    requires MaskFits(h, objSize) && HasFlag(h, HasPointerMember) && i < 8 && MaskBit(h, i)
    ensures i < Reserved(h, objSize)
  {
    MaskBitBelowExtent(h, i);
  }

  /** Indices below `n` whose mask bit is set, in increasing order. */
  function MaskIndicesBelow(h: ObjHeader, n: nat): (r: seq<nat>)
    requires n <= 8
    ensures forall j :: 0 <= j < |r| ==> r[j] < n && MaskBit(h, r[j])
    ensures forall i :: 0 <= i < n ==> (i in r <==> MaskBit(h, i))
    ensures forall j, k :: 0 <= j < k < |r| ==> r[j] < r[k]
  {
    if n == 0 then []
    else
      var prefix := MaskIndicesBelow(h, n - 1);
      if MaskBit(h, n - 1) then prefix + [n - 1] else prefix
  }

  /** Payload word indices `callWithPointerMember` reports: the set mask bits, if the object has pointer members. */
  function PointerIndices(h: ObjHeader): (r: seq<nat>)
    ensures |r| <= 8
    ensures forall j :: 0 <= j < |r| ==> r[j] < 8 && MaskBit(h, r[j])
    ensures forall i :: 0 <= i < 8 ==> (i in r <==> HasFlag(h, HasPointerMember) && MaskBit(h, i))
    ensures forall j, k :: 0 <= j < k < |r| ==> r[j] < r[k]
  {
    if HasFlag(h, HasPointerMember) then
      var r := MaskIndicesBelow(h, 8);
      assert forall j :: 0 <= j < |r| ==> r[j] in r;
      assert |r| <= 8 by {
        assert forall x :: x in multiset(r) ==> x < 8;
        SortedBelowIsShort(r, 8);
      }
      r
    else []
  }

  /** A strictly increasing sequence of numbers below `n` has at most `n` elements. */
  lemma {:induction false} SortedBelowIsShort(r: seq<nat>, n: nat)
    requires forall j :: 0 <= j < |r| ==> r[j] < n
    requires forall j, k :: 0 <= j < k < |r| ==> r[j] < r[k]
    ensures |r| <= n
  {
    if |r| > 0 {
      var last := r[|r| - 1];
      SortedBelowIsShort(r[..|r| - 1], last);
    }
  }

  /**
   * `callWithPointerMember`: the pointer slots of the object at `p` that the
   * inline mask reports, in increasing address order.
   */
  function PointerMembers(p: nat, h: ObjHeader): (r: seq<nat>)
    ensures |r| == |PointerIndices(h)|
    ensures forall j :: 0 <= j < |r| ==> r[j] == Field(p, PointerIndices(h)[j])
    ensures forall i :: 0 <= i < 8 ==> (Field(p, i) in r <==> HasFlag(h, HasPointerMember) && MaskBit(h, i))
    ensures forall j, k :: 0 <= j < k < |r| ==> r[j] < r[k]
  {
    Fields(p, PointerIndices(h))
  }

  /** The addresses of payload words `idx` of the object at `p`. */
  function Fields(p: nat, idx: seq<nat>): (r: seq<nat>)
    ensures |r| == |idx| && forall j :: 0 <= j < |idx| ==> r[j] == Field(p, idx[j])
  {
    seq(|idx|, j requires 0 <= j < |idx| => Field(p, idx[j]))
  }

  // ---------------------------------------------------------------------------
  // Region lookup

  /** The largest key of `bases` that is at most `ptr` (`lower_bound` on a map ordered by `>`). */
  function HugeFloor(bases: set<nat>, ptr: nat): (r: Option<nat>)
    ensures r.Some? ==> r.value in bases && r.value <= ptr
    ensures r.Some? ==> forall b :: b in bases && b <= ptr ==> b <= r.value
    ensures r.None? ==> forall b :: b in bases ==> b > ptr
  {
    if ptr in bases then Some(ptr)
    else if ptr == 0 then None
    else HugeFloor(bases, ptr - 1)
  }

  /**
   * `getMemType`'s lookup: the page table first, then the huge object with the
   * largest base at or below `ptr`, if `ptr` lies inside it. `None` is an
   * address no region tracks.
   */
  function LookupRegion(pages: map<nat, MemType>, huge: set<nat>, headers: map<nat, ObjHeader>,
                        objSize: nat -> nat, ptr: nat): (r: Option<MemType>)
    requires huge <= headers.Keys
    ensures PageId(ptr) in pages ==> r == Some(pages[PageId(ptr)])
    ensures PageId(ptr) !in pages ==>
      (r == Some(Huge) <==> exists b :: b in huge && HugeFloor(huge, ptr) == Some(b) && ptr < b + SizeBytes(headers[b], objSize))
    ensures PageId(ptr) !in pages ==> r == None || r == Some(Huge)
  {
    if PageId(ptr) in pages then Some(pages[PageId(ptr)])
    else match HugeFloor(huge, ptr)
      case Some(b) => if SizeBytes(headers[b], objSize) + b > ptr then Some(Huge) else None
      case None => None
  }

  /** `isMemTypeMinor`: only a page the page table maps to `Minor`. */
  predicate IsMinorPage(pages: map<nat, MemType>, ptr: nat) {
    PageId(ptr) in pages && pages[PageId(ptr)] == Minor
  }

  /** `isMemTypeMinor` agrees with the full lookup: huge and unmapped addresses are never minor. */
  lemma MinorPageIffLookupMinor(pages: map<nat, MemType>, huge: set<nat>, headers: map<nat, ObjHeader>,
                                objSize: nat -> nat, ptr: nat)
    requires huge <= headers.Keys
    ensures IsMinorPage(pages, ptr) <==> LookupRegion(pages, huge, headers, objSize, ptr) == Some(Minor)
  {
  }

  // ---------------------------------------------------------------------------
  // Raw memory and the abstract allocator

  /**
   * `headers` holds the header word of every object, keyed by the object
   * pointer; `words` maps slot addresses to their contents; `top` is the
   * first page not yet handed out by the allocator.
   */
  datatype RawMemory = RawMemory(headers: map<nat, ObjHeader>, words: map<nat, nat>, top: nat)

  /** Every payload word of the object at `o` exists. */
  predicate HasSlots(m: RawMemory, o: nat, objSize: nat -> nat)
    requires o in m.headers
  {
    forall i :: 0 <= i < Reserved(m.headers[o], objSize) ==> Field(o, i) in m.words
  }

  /**
   * Shape of raw memory the collector relies on: nothing lives in page 0 (so
   * `nullptr` is no object), everything lies below `top`, every word is
   * `nullptr` or a pointer to an object, and every object has its payload words.
   */
  ghost predicate WellFormed(m: RawMemory, objSize: nat -> nat) {
    && m.top % PageSize == 0 && PageSize <= m.top
    && (forall o :: o in m.headers ==> PageSize <= o < m.top)
    && (forall a :: a in m.words ==> a < m.top)
    && (forall a {:trigger m.words[a]} :: a in m.words ==> m.words[a] == 0 || m.words[a] in m.headers)
    && (forall o :: o in m.headers ==> HasSlots(m, o, objSize) && MaskFits(m.headers[o], objSize))
  }

  /** Result of handing out storage: the new page table, memory and object pointer. */
  datatype Allocation = Allocation(pages: map<nat, MemType>, mem: RawMemory, ptr: nat)

  /** Pages the allocator takes for an object with `n` payload words and its header. */
  function PagesFor(n: nat): (k: nat)
    ensures k >= 1 && WordSize * (n + 1) < PageSize * k
  {
    1 + WordSize * (n + 1) / PageSize
  }

  /** `n` fresh payload words of the object at `p`, all `nullptr`. */
  function BlankWords(p: nat, n: nat): (r: map<nat, nat>)
    ensures forall i :: 0 <= i < n ==> Field(p, i) in r && r[Field(p, i)] == 0
    ensures forall a :: a in r ==> p <= a < p + WordSize * n && r[a] == 0
  {
    map i | 0 <= i < n :: Field(p, i) := 0
  }

  /** Page table entries for the pages in `[lo, hi)`, all mapped to `region`. */
  function FreshPages(lo: nat, hi: nat, region: MemType): (r: map<nat, MemType>)
    requires lo % PageSize == 0
    ensures forall pg :: pg in r ==> lo <= pg < hi && r[pg] == region
    ensures lo < hi ==> lo in r
  {
    map pg | lo <= pg < hi && pg % PageSize == 0 :: region
  }

  /** Adding a fresh object above everything else keeps raw memory well formed. */
  lemma AddObjectWellFormed(m: RawMemory, p: nat, h: ObjHeader, objSize: nat -> nat, newTop: nat)
    requires WellFormed(m, objSize) && MaskFits(h, objSize)
    requires p == m.top + WordSize && newTop % PageSize == 0
    requires p + WordSize * Reserved(h, objSize) <= newTop
    ensures WellFormed(RawMemory(m.headers[p := h], m.words + BlankWords(p, Reserved(h, objSize)), newTop), objSize)
  {
    var n := Reserved(h, objSize);
    var m' := RawMemory(m.headers[p := h], m.words + BlankWords(p, n), newTop);
    assert HasSlots(m', p, objSize);
    forall o | o in m.headers ensures HasSlots(m', o, objSize) {
      assert HasSlots(m, o, objSize);
    }
  }

  /**
   * `allocMinor` / `allocMajor` storage: the object goes at the start of fresh
   * pages mapped to `region`, header first, payload words `nullptr`.
   */
  function Allocate(pages: map<nat, MemType>, m: RawMemory, region: MemType, h: ObjHeader,
                    objSize: nat -> nat): (a: Allocation)
    requires WellFormed(m, objSize) && MaskFits(h, objSize)
    requires forall pg :: pg in pages ==> pg < m.top
    ensures WellFormed(a.mem, objSize)
    ensures forall pg :: pg in a.pages ==> pg < a.mem.top
    ensures a.ptr !in m.headers && a.ptr != 0
    ensures a.mem.headers == m.headers[a.ptr := h]
    ensures PageId(a.ptr) in a.pages && a.pages[PageId(a.ptr)] == region
    ensures forall pg :: pg in pages ==> pg in a.pages && a.pages[pg] == pages[pg]
    ensures forall pg :: pg in a.pages && pg !in pages ==> a.pages[pg] == region && m.top <= pg
    ensures forall w :: w in m.words ==> w in a.mem.words && a.mem.words[w] == m.words[w]
    ensures forall i :: 0 <= i < Reserved(h, objSize) ==>
      Field(a.ptr, i) !in m.words && Field(a.ptr, i) in a.mem.words && a.mem.words[Field(a.ptr, i)] == 0
    ensures forall w :: w in a.mem.words ==> w in m.words || a.ptr <= w < Field(a.ptr, Reserved(h, objSize))
    ensures m.top < a.mem.top
  {
    var n := Reserved(h, objSize);
    var p := m.top + WordSize;
    var newTop := m.top + PageSize * PagesFor(n);
    AddObjectWellFormed(m, p, h, objSize, newTop);
    assert PageId(p) == m.top;
    Allocation(pages + FreshPages(m.top, newTop, region),
               RawMemory(m.headers[p := h], m.words + BlankWords(p, n), newTop), p)
  }

  /** Header of the copy of a minor object: promoted and white at `PromotionAge`, otherwise one year older. */
  function EvacuatedHeader(h: ObjHeader): (r: ObjHeader)
    ensures h.ageOrColor >= PromotionAge ==> !HasFlag(r, IsMinorObject) && r.ageOrColor == ColorValue(White)
    ensures h.ageOrColor < PromotionAge ==> HasFlag(r, IsMinorObject) && r.ageOrColor == h.ageOrColor + 1
    ensures r.typeId == h.typeId && r.sizeCompressed == h.sizeCompressed && r.pointerMask == h.pointerMask
    ensures forall g :: g != IsMinorObject ==> (HasFlag(r, g) <==> HasFlag(h, g))
  {
    if h.ageOrColor >= PromotionAge then SetColor(RemoveFlag(h, IsMinorObject), White)
    else AddFlag(h, IsMinorObject).(ageOrColor := h.ageOrColor + 1)
  }

  /** Region the copy of a minor object goes to. */
  function EvacuationRegion(h: ObjHeader): MemType {
    if h.ageOrColor >= PromotionAge then Major else Minor
  }

  /** The evacuated header keeps size and mask, so it still fits. */
  lemma EvacuatedMaskFits(h: ObjHeader, objSize: nat -> nat)
    requires MaskFits(h, objSize)
    ensures Reserved(EvacuatedHeader(h), objSize) == Reserved(h, objSize)
    ensures MaskFits(EvacuatedHeader(h), objSize)
  {
    var e := EvacuatedHeader(h);
    assert HasFlag(e, HasPointerMember) == HasFlag(h, HasPointerMember);
  }

  /**
   * `dst` with payload words `0 .. n-1` of the object at `q` overwritten by
   * the same words of the object at `o` in `src`, written in index order.
   */
  function CopyWords(dst: map<nat, nat>, src: map<nat, nat>, o: nat, q: nat, n: nat): (r: map<nat, nat>)
    requires forall i :: 0 <= i < n ==> Field(o, i) in src && Field(q, i) in dst
    ensures r.Keys == dst.Keys
    ensures forall i :: 0 <= i < n ==> r[Field(q, i)] == src[Field(o, i)]
    ensures forall a :: a in dst && (a < q || Field(q, n) <= a) ==> r[a] == dst[a]
  {
    if n == 0 then dst
    else CopyWords(dst, src, o, q, n - 1)[Field(q, n - 1) := src[Field(o, n - 1)]]
  }

  /** Copying words within a memory whose words all satisfy `ok` keeps them all satisfying it. */
  lemma {:induction false} CopyWordsKeepsTargets(words: map<nat, nat>, o: nat, q: nat, n: nat, heads: set<nat>)
    requires forall i :: 0 <= i < n ==> Field(o, i) in words && Field(q, i) in words
    requires forall a :: a in words ==> words[a] == 0 || words[a] in heads
    ensures forall a :: a in CopyWords(words, words, o, q, n) ==>
      CopyWords(words, words, o, q, n)[a] == 0 || CopyWords(words, words, o, q, n)[a] in heads
  {
    if n > 0 {
      CopyWordsKeepsTargets(words, o, q, n - 1, heads);
      var prev := CopyWords(words, words, o, q, n - 1);
      var r := CopyWords(words, words, o, q, n);
      assert r == prev[Field(q, n - 1) := words[Field(o, n - 1)]];
      forall a | a in r ensures r[a] == 0 || r[a] in heads {
        if a != Field(q, n - 1) {
          assert a in prev && r[a] == prev[a];
          assert prev[a] == 0 || prev[a] in heads;
        } else {
          assert Field(o, n - 1) in words;
          assert r[a] == words[Field(o, n - 1)];
          assert words[Field(o, n - 1)] == 0 || words[Field(o, n - 1)] in heads;
        }
      }
    }
  }

  /** Overwriting words with `nullptr` or object pointers and forwarding word 0 of `o` keeps memory well formed. */
  lemma ForwardCopyWellFormed(m: RawMemory, o: nat, words': map<nat, nat>, q: nat, objSize: nat -> nat)
    requires WellFormed(m, objSize) && o in m.headers && q in m.headers
    requires words'.Keys == m.words.Keys
    requires forall a :: a in words' ==> words'[a] == 0 || words'[a] in m.headers
    ensures WellFormed(RawMemory(m.headers[o := AddFlag(m.headers[o], IsMoved)], words'[o := q], m.top), objSize)
  {
    var h := m.headers[o];
    var hMoved := AddFlag(h, IsMoved);
    var m' := RawMemory(m.headers[o := hMoved], words'[o := q], m.top);
    assert Reserved(hMoved, objSize) == Reserved(h, objSize);
    assert MaskFits(hMoved, objSize) by {
      assert MaskFits(h, objSize);
      assert HasFlag(hMoved, HasPointerMember) == HasFlag(h, HasPointerMember);
    }
    forall o' | o' in m'.headers ensures HasSlots(m', o', objSize) {
      assert HasSlots(m, o', objSize);
    }
    assert HasSlots(m, o, objSize) && Field(o, 0) == o;
  }

  /**
   * `moveMinor`'s effect: a copy of the object at `o` in fresh storage of
   * `EvacuationRegion`, its payload copied word for word, the source header
   * marked moved and the source's word 0 overwritten with the new address.
   */
  function Evacuate(pages: map<nat, MemType>, m: RawMemory, o: nat, objSize: nat -> nat): (a: Allocation)
    requires WellFormed(m, objSize) && o in m.headers
    requires forall pg :: pg in pages ==> pg < m.top
    ensures WellFormed(a.mem, objSize)
    ensures a.ptr !in m.headers && a.ptr != 0 && m.top < a.ptr
    ensures a.mem.headers == m.headers[a.ptr := EvacuatedHeader(m.headers[o])][o := AddFlag(m.headers[o], IsMoved)]
    ensures o in a.mem.words && a.mem.words[o] == a.ptr
  {
    var h := m.headers[o];
    var n := WordCount(h, objSize);
    assert HasSlots(m, o, objSize);
    EvacuatedMaskFits(h, objSize);
    var al := Allocate(pages, m, EvacuationRegion(h), EvacuatedHeader(h), objSize);
    var words' := CopyWords(al.mem.words, al.mem.words, o, al.ptr, n);
    CopyWordsKeepsTargets(al.mem.words, o, al.ptr, n, al.mem.headers.Keys);
    ForwardCopyWellFormed(al.mem, o, words', al.ptr, objSize);
    Allocation(al.pages, RawMemory(al.mem.headers[o := AddFlag(h, IsMoved)], words'[o := al.ptr], al.mem.top), al.ptr)
  }

  /** Where `Evacuate` puts the copy: fresh pages of `EvacuationRegion`; existing page entries stay. */
  lemma EvacuatePages(pages: map<nat, MemType>, m: RawMemory, o: nat, objSize: nat -> nat, a: Allocation)
    requires WellFormed(m, objSize) && o in m.headers
    requires forall pg :: pg in pages ==> pg < m.top
    requires a == Evacuate(pages, m, o, objSize)
    ensures forall pg :: pg in a.pages ==> pg < a.mem.top
    ensures PageId(a.ptr) in a.pages && a.pages[PageId(a.ptr)] == EvacuationRegion(m.headers[o])
    ensures forall pg :: pg in pages ==> pg in a.pages && a.pages[pg] == pages[pg]
    ensures forall pg :: pg in a.pages && pg !in pages ==> a.pages[pg] == EvacuationRegion(m.headers[o]) && m.top <= pg
    ensures m.top < a.mem.top
  {
    var h := m.headers[o];
    EvacuatedMaskFits(h, objSize);
  }

  /** What `Evacuate` does to the copy's words: the payload of `o`, word by word. */
  lemma EvacuateCopies(pages: map<nat, MemType>, m: RawMemory, o: nat, objSize: nat -> nat, a: Allocation)
    requires WellFormed(m, objSize) && o in m.headers
    requires forall pg :: pg in pages ==> pg < m.top
    requires a == Evacuate(pages, m, o, objSize)
    ensures forall i :: 0 <= i < WordCount(m.headers[o], objSize) ==>
      Field(o, i) in m.words && Field(a.ptr, i) in a.mem.words && a.mem.words[Field(a.ptr, i)] == m.words[Field(o, i)]
  {
    var h := m.headers[o];
    var n := WordCount(h, objSize);
    assert HasSlots(m, o, objSize);
    EvacuatedMaskFits(h, objSize);
    var al := Allocate(pages, m, EvacuationRegion(h), EvacuatedHeader(h), objSize);
    assert a.ptr == al.ptr && a.mem.words == CopyWords(al.mem.words, al.mem.words, o, al.ptr, n)[o := al.ptr];
    CopyThenForward(m.words, al.mem.words, o, al.ptr, n);
  }

  /** The copy loop followed by the forwarding store leaves the copy holding the original's payload. */
  lemma CopyThenForward(before: map<nat, nat>, w: map<nat, nat>, o: nat, q: nat, n: nat)
    requires forall a :: a in before ==> a in w && w[a] == before[a] && a < q
    requires forall i :: 0 <= i < n ==> Field(o, i) in before && Field(q, i) in w
    requires o < q
    ensures forall i :: 0 <= i < n ==>
      Field(o, i) in before && Field(q, i) in CopyWords(w, w, o, q, n)[o := q]
      && CopyWords(w, w, o, q, n)[o := q][Field(q, i)] == before[Field(o, i)]
  {
  }

  /** What `Evacuate` does to the words that existed: all kept but word 0 of `o`. */
  lemma EvacuateKeepsWords(pages: map<nat, MemType>, m: RawMemory, o: nat, objSize: nat -> nat, a: Allocation)
    requires WellFormed(m, objSize) && o in m.headers
    requires forall pg :: pg in pages ==> pg < m.top
    requires a == Evacuate(pages, m, o, objSize)
    ensures forall w :: w in m.words && w != o ==> w in a.mem.words && a.mem.words[w] == m.words[w]
  {
    var h := m.headers[o];
    var n := WordCount(h, objSize);
    assert HasSlots(m, o, objSize);
    EvacuatedMaskFits(h, objSize);
    var al := Allocate(pages, m, EvacuationRegion(h), EvacuatedHeader(h), objSize);
    var words' := CopyWords(al.mem.words, al.mem.words, o, al.ptr, n);
    assert a.ptr == al.ptr && a.mem.words == words'[o := al.ptr];
    forall w | w in m.words && w != o
      ensures w in a.mem.words && a.mem.words[w] == m.words[w]
    {
      assert w < m.top < al.ptr;
      assert words'[w] == al.mem.words[w] == m.words[w];
    }
  }

  // ---------------------------------------------------------------------------
  // Read barrier

  /** Storing `nullptr` or an object pointer into an existing slot keeps memory well formed. */
  lemma StoreKeepsWellFormed(m: RawMemory, dst: nat, v: nat, objSize: nat -> nat)
    requires WellFormed(m, objSize) && dst in m.words && (v == 0 || v in m.headers)
    ensures WellFormed(m.(words := m.words[dst := v]), objSize)
  {
    var m' := m.(words := m.words[dst := v]);
    forall o | o in m'.headers ensures HasSlots(m', o, objSize) {
      assert HasSlots(m, o, objSize);
    }
  }

  /** Word 0 of every object exists: it is where a forwarding address goes. */
  lemma WordZeroExists(m: RawMemory, o: nat, objSize: nat -> nat)
    requires WellFormed(m, objSize) && o in m.headers
    ensures o in m.words
  {
    assert HasSlots(m, o, objSize);
    assert Field(o, 0) == o;
  }

  /** Following a forwarding word: the address word 0 holds once the object at `target` has moved. */
  function Forward(m: RawMemory, target: nat): nat
    requires target == 0 || (target in m.headers && target in m.words)
  {
    if target != 0 && HasFlag(m.headers[target], IsMoved) then m.words[target] else target
  }

  /**
   * The value `readWithBarrier(src)` returns and writes back into `*src`:
   * outside a minor collection the slot's content; during one, the forwarding
   * address when the target has moved. A slot holding `nullptr` reads as
   * `nullptr` (the source does not test for it, see `ReadBarrierAsWritten`).
   */
  function ReadBarrier(stage: Stage, m: RawMemory, objSize: nat -> nat, src: nat): (r: nat)
    requires WellFormed(m, objSize) && src in m.words
    ensures r == 0 || r in m.headers
    ensures stage != MinorGC || m.words[src] == 0 ==> r == m.words[src]
    ensures stage == MinorGC && m.words[src] != 0 && !HasFlag(m.headers[m.words[src]], IsMoved) ==> r == m.words[src]
    ensures stage == MinorGC && m.words[src] != 0 && HasFlag(m.headers[m.words[src]], IsMoved) ==>
              m.words[src] in m.words && r == m.words[m.words[src]]
  {
    if stage != MinorGC || m.words[src] == 0 then m.words[src]
    else
      WordZeroExists(m, m.words[src], objSize);
      Forward(m, m.words[src])
  }

  /**
   * Self-healing: once the slot holds the value read, reading it again returns
   * the same value, provided that value is not itself a moved object.
   */
  lemma ReadBarrierHeals(stage: Stage, m: RawMemory, objSize: nat -> nat, src: nat)
    requires WellFormed(m, objSize) && src in m.words
    requires var r := ReadBarrier(stage, m, objSize, src); r == 0 || !HasFlag(m.headers[r], IsMoved)
    ensures var r := ReadBarrier(stage, m, objSize, src);
      var healed := m.(words := m.words[src := r]);
      WellFormed(healed, objSize) && ReadBarrier(stage, healed, objSize, src) == r
  {
    var r := ReadBarrier(stage, m, objSize, src);
    var healed := m.(words := m.words[src := r]);
    assert forall o :: o in healed.headers ==> HasSlots(healed, o, objSize) by {
      forall o | o in healed.headers ensures HasSlots(healed, o, objSize) {
        assert HasSlots(m, o, objSize);
      }
    }
  }

  /**
   * `readWithBarrier` as written: during a minor collection it reads the
   * header in front of `*src` without testing for `nullptr`; `None` stands for
   * that read of memory that holds no header.
   */
  function ReadBarrierAsWritten(stage: Stage, m: RawMemory, objSize: nat -> nat, src: nat): (r: Option<nat>)
    requires WellFormed(m, objSize) && src in m.words
    ensures r.None? <==> stage == MinorGC && m.words[src] == 0
    ensures r.Some? ==> r.value == ReadBarrier(stage, m, objSize, src)
  {
    if stage != MinorGC then Some(m.words[src])
    else if m.words[src] !in m.headers then None
    else
      WordZeroExists(m, m.words[src], objSize);
      Some(Forward(m, m.words[src]))
  }
}

=== FILE: inplace_vector.dfy ===
/**
 * The fixed-capacity vector of src/tools/inplace_vector.hpp.
 *
 * `data` is the buffer of `capacity` uninitialised slots; a slot holding a
 * live object is `Some(x)`, a slot with no object constructed in it is
 * `None`. Pointers into the buffer are slot indices, so `begin()` is 0 and
 * `end()` is `size`.
 */
module InplaceVectors {
  import opened Wrappers

  class InplaceVector<T> {
    /** `Capacity`. */
    const capacity: nat
    var size: nat
    /** `data[Capacity]`. */
    const data: array<Option<T>>

    /** The first `size` slots hold live objects and the others hold none. */
    ghost predicate Valid()
      reads this, data
    {
      && data.Length == capacity
      && size <= capacity
      && (forall i :: 0 <= i < size ==> data[i].Some?)
      && (forall i :: size <= i < capacity ==> data[i].None?)
    }

    /** An empty vector: no slot holds an object. */
    constructor (capacity: nat)
      ensures Valid() && this.capacity == capacity && size == 0 && fresh(data)
      ensures Elements() == []
    {
      this.capacity := capacity;
      size := 0;
      data := new Option<T>[capacity](_ => None);
    }

    /** `begin()`: the index of slot 0. */
    function Begin(): (b: nat)
      ensures b == 0
    {
      0
    }

    /** `end()`: the index one past the last live object. */
    function End(): (e: nat)
      reads this, data
      requires Valid()
      ensures e - Begin() == size && e <= capacity
      ensures forall i :: Begin() <= i < capacity ==> (data[i].Some? <==> i < e)
    {
      size
    }

    /** The live objects, in slot order: exactly the range `[begin(), end())`. */
    ghost function Elements(): (s: seq<T>)
      reads this, data
      requires Valid()
      ensures |s| == End() - Begin()
      ensures forall i :: Begin() <= i < End() ==> data[i] == Some(s[i - Begin()])
    {
      seq(size, i requires 0 <= i < data.Length && data[i].Some? reads data => data[i].value)
    }

    /**
     * `emplace(x)`: constructs `x` in slot `size` and counts it. It answers
     * the index of the new object.
     */
    method Emplace(x: T) returns (r: nat)
      requires Valid() && size != capacity
      modifies this, data
      ensures Valid()
      ensures r == old(size) && size == old(size) + 1 && data[r] == Some(x)
      ensures forall i :: 0 <= i < capacity && i != r ==> data[i] == old(data[i])
      ensures Elements() == old(Elements()) + [x]
    {
      ghost var before := Elements();
      r := size;
      data[size] := Some(x);
      size := size + 1;
      assert Elements() == before + [x];
    }

    /** `pop_back()`: uncounts and destroys the last object. */
    method PopBack()
      requires Valid() && size > 0
      modifies this, data
      ensures Valid()
      ensures size == old(size) - 1 && data[size] == None
      ensures forall i :: 0 <= i < capacity && i != size ==> data[i] == old(data[i])
      ensures Elements() == old(Elements())[..size]
    {
      ghost var before := Elements();
      size := size - 1;
      data[size] := None;
      assert Elements() == before[..size];
    }
  }
}

=== FILE: lexer.dfy ===
/**
 * The index-based tokeniser of src/frontend/lexer/lexer.hpp.
 *
 * The source text is a sequence of characters, one per byte of the source;
 * a code point of 0x80 or more stands for a byte with its high bit set. A
 * token is an offset into the text with its characters and its type.
 *
 * The pure functions in the first half describe what each scanning step
 * returns; the `LexerContext` class holds the text and the memo table and its
 * methods are the scanning loops, each proved to compute its function.
 */
module Lexer {
  import opened Wrappers

  /** `LexerContext::TokenType`. `EndLine` is declared but no branch produces it. */
  datatype TokenType =
    | Unknown | EndLine | Symbol | Identifier | Int | Real | EOF | Char
    | StringFull | StringBegin | StringMiddle | StringEnd

  /** `LexerContext::Guidance`: whether the caller expects the continuation of a template string. */
  datatype Guidance = NoGuidance | TemplateString

  function GuidanceValue(g: Guidance): nat {
    match g
    case NoGuidance => 0
    case TemplateString => 1
  }

  /** `Guidance::__size`. */
  const GuidanceCount: nat := 2

  /** `SIZE_MAX` of a 64-bit `size_t`. */
  const SizeMax: nat := 0xFFFF_FFFF_FFFF_FFFF

  /** Where a scan stopped and the type of token it read. */
  datatype Scan = Scan(end: nat, kind: TokenType)

  /** A token: its offset in the text, its characters and its type. */
  datatype Token = Token(start: nat, text: string, kind: TokenType)

  // ---------------------------------------------------------------------------
  // Characters

  /** `getChar(i)`: the character at `i`, or NUL past the end. */
  function GetChar(src: string, i: nat): (c: char)
    ensures i >= |src| ==> c == '\0'
    ensures i < |src| ==> c == src[i]
  {
    if i >= |src| then '\0' else src[i]
  }

  /** `isspace` in the C locale: space, tab, newline, vertical tab, form feed, carriage return. */
  predicate IsSpace(c: char) {
    c == ' ' || 9 <= c as int <= 13
  }

  /** `isdigit`. */
  predicate IsDigit(c: char) {
    '0' <= c <= '9'
  }

  /** `isalpha` in the C locale. */
  predicate IsAlpha(c: char) {
    'a' <= c <= 'z' || 'A' <= c <= 'Z'
  }

  /** A hexadecimal digit, as `skipQuotedChar` accepts them. */
  predicate IsHexDigit(c: char) {
    IsDigit(c) || 'a' <= c <= 'f' || 'A' <= c <= 'F'
  }

  /** `isSingleOnlySymbol`: the characters that always form a token on their own. */
  predicate IsSingleOnlySymbol(c: char) {
    c == ';' || c == '(' || c == ')' || c == '[' || c == ']' || c == '{' || c == '}' || c == ',' || c == ':'
  }

  /** `isConcatSymbol`: operator characters, which run together into one symbol. */
  predicate IsConcatSymbol(c: char) {
    c == '+' || c == '-' || c == '*' || c == '/' || c == '%' || c == '=' || c == '!' || c == '<'
    || c == '>' || c == '&' || c == '|' || c == '^' || c == '~' || c == '.' || c == '?'
  }

  /** `isLegalIdent`: letters, digits, `_` and any byte with the high bit set (UTF-8). */
  predicate IsLegalIdent(c: char) {
    IsAlpha(c) || IsDigit(c) || c == '_' || c as int >= 0x80
  }

  /**
   * The character classes are disjoint where it matters: a single-only symbol
   * is neither an operator character nor an identifier character, operator
   * characters are not identifier characters, and NUL, which `GetChar`
   * returns past the end, belongs to none of them.
   */
  lemma CharClassesDisjoint(c: char)
    ensures IsSingleOnlySymbol(c) ==> !IsConcatSymbol(c) && !IsLegalIdent(c) && !IsSpace(c)
    ensures IsConcatSymbol(c) ==> !IsLegalIdent(c) && !IsSpace(c)
    ensures IsDigit(c) ==> IsLegalIdent(c) && IsHexDigit(c)
    ensures c == '\0' ==>
      !IsSpace(c) && !IsDigit(c) && !IsHexDigit(c) && !IsSingleOnlySymbol(c) && !IsConcatSymbol(c) && !IsLegalIdent(c)
  {
  }

  // ---------------------------------------------------------------------------
  // The memo key

  /**
   * `getCacheKey(index, guide)`: aborts (`None`) when `index * 2` could
   * overflow; otherwise `2 * index + guide`, which fits in a `size_t` and
   * from which both arguments can be read back.
   */
  function GetCacheKey(index: nat, guide: Guidance): (r: Option<nat>)
    ensures r.None? <==> index >= SizeMax / GuidanceCount
    ensures r.Some? ==> r.value <= SizeMax
    ensures r.Some? ==> r.value / GuidanceCount == index && r.value % GuidanceCount == GuidanceValue(guide)
  {
    if SizeMax / GuidanceCount <= index then None
    else Some(index * GuidanceCount + GuidanceValue(guide))
  }

  /** The guidance a key encodes. */
  function KeyGuidance(key: nat): Guidance {
    if key % GuidanceCount == 0 then NoGuidance else TemplateString
  }

  /** Distinct (index, guidance) pairs get distinct keys, and each key decodes to its pair. */
  lemma CacheKeyInjective(i: nat, g: Guidance, j: nat, h: Guidance)
    requires GetCacheKey(i, g).Some? && GetCacheKey(j, h).Some?
    ensures GetCacheKey(i, g) == GetCacheKey(j, h) <==> i == j && g == h
    ensures KeyGuidance(GetCacheKey(i, g).value) == g
  {
    if GetCacheKey(i, g) == GetCacheKey(j, h) {
      assert GuidanceValue(g) == GuidanceValue(h);
    }
  }

  // ---------------------------------------------------------------------------
  // Whitespace and comments

  /** The text at `i` starts a line comment `//`. */
  predicate StartsComment(src: string, i: nat) {
    i + 1 < |src| && src[i] == '/' && src[i + 1] == '/'
  }

  /** The first newline at or after `i`, or the end of the text. */
  function LineEnd(src: string, i: nat): (r: nat)
    requires i <= |src|
    ensures i <= r <= |src| && (r == |src| || src[r] == '\n')
    ensures forall j :: i <= j < r ==> src[j] != '\n'
    decreases |src| - i
  {
    if i < |src| && src[i] != '\n' then LineEnd(src, i + 1) else i
  }

  /**
   * Where `skipSpaceAndComment(i)` stops: past every whitespace character
   * and every line comment (up to its newline), at a position holding
   * neither.
   */
  function SpaceEnd(src: string, i: nat): (r: nat)
    requires i <= |src|
    ensures i <= r <= |src|
    ensures !(r < |src| && IsSpace(src[r])) && !StartsComment(src, r)
    decreases |src| - i
  {
    if i < |src| && IsSpace(src[i]) then SpaceEnd(src, i + 1)
    else if StartsComment(src, i) then SpaceEnd(src, LineEnd(src, i + 2))
    else i
  }

  /** Skipping is idempotent: at the stopping point there is nothing more to skip. */
  lemma SpaceEndIdempotent(src: string, i: nat)
    requires i <= |src|
    ensures SpaceEnd(src, SpaceEnd(src, i)) == SpaceEnd(src, i)
  {
  }

  // ---------------------------------------------------------------------------
  // Digits and escapes

  /** The first position at or after `j` whose character is not a digit. */
  function DigitsEnd(src: string, j: nat): (r: nat)
    ensures j <= r && !IsDigit(GetChar(src, r))
    ensures j <= |src| ==> r <= |src|
    ensures forall k :: j <= k < r ==> k < |src| && IsDigit(src[k])
    decreases |src| - j
  {
    if IsDigit(GetChar(src, j)) then DigitsEnd(src, j + 1) else j
  }

  /** `skipNumSeq(i)`: steps over the character at `i`, then over every digit that follows. */
  function NumSeqEnd(src: string, i: nat): (r: nat)
    ensures i < r && !IsDigit(GetChar(src, r))
    ensures i < |src| ==> r <= |src|
    ensures forall k :: i < k < r ==> k < |src| && IsDigit(src[k])
  {
    DigitsEnd(src, i + 1)
  }

  /**
   * The `for` loop of `skipQuotedChar` from position `i` with `k` rounds
   * left: each round steps over the character at the current position if it
   * is a hexadecimal digit.
   */
  function HexLoop(src: string, i: nat, k: nat): (r: nat)
    ensures i <= r <= i + k
    ensures i <= |src| ==> r <= |src|
    decreases k
  {
    if k == 0 then i
    else HexLoop(src, if IsHexDigit(GetChar(src, i)) then i + 1 else i, k - 1)
  }

  /**
   * The loop reads at most `k` hexadecimal digits: everything it steps over is
   * one, and it stops early only at a character that is not.
   */
  lemma {:induction false} HexLoopReadsDigits(src: string, i: nat, k: nat)
    ensures forall j :: i <= j < HexLoop(src, i, k) ==> j < |src| && IsHexDigit(src[j])
    ensures HexLoop(src, i, k) < i + k ==> !IsHexDigit(GetChar(src, HexLoop(src, i, k)))
    decreases k
  {
    if k > 0 {
      if IsHexDigit(GetChar(src, i)) {
        assert i < |src| && IsHexDigit(src[i]);
        assert HexLoop(src, i, k) == HexLoop(src, i + 1, k - 1);
        HexLoopReadsDigits(src, i + 1, k - 1);
        forall j | i <= j < HexLoop(src, i, k)
          ensures j < |src| && IsHexDigit(src[j])
        {
          if j > i {
            assert i + 1 <= j < HexLoop(src, i + 1, k - 1);
          }
        }
      } else {
        HexLoopStays(src, i, k);
      }
    } else {
      assert HexLoop(src, i, k) == i;
    }
  }

  /** At a character that is not a hexadecimal digit the loop never moves. */
  lemma {:induction false} HexLoopStays(src: string, i: nat, k: nat)
    requires !IsHexDigit(GetChar(src, i))
    ensures HexLoop(src, i, k) == i
    decreases k
  {
    if k > 0 {
      HexLoopStays(src, i, k - 1);
    }
  }

  /**
   * `skipQuotedChar(i)`: one character of a quoted literal. `\n`, `\r`, `\t`
   * and `\\` take two characters; `\u` and `\x` take two plus up to eight or
   * two hexadecimal digits; any other backslash takes only itself; any other
   * character takes one.
   */
  function QuotedCharEnd(src: string, i: nat): (r: nat)
    requires i < |src|
    ensures i < r <= |src|
    ensures src[i] != '\\' ==> r == i + 1
    ensures src[i] == '\\' && GetChar(src, i + 1) in ['n', 'r', 't', '\\'] ==> r == i + 2
    ensures src[i] == '\\' && GetChar(src, i + 1) == 'u' ==> i + 2 <= r <= i + 10
    ensures src[i] == '\\' && GetChar(src, i + 1) == 'x' ==> i + 2 <= r <= i + 4
    ensures src[i] == '\\' && GetChar(src, i + 1) !in ['n', 'r', 't', '\\', 'u', 'x'] ==> r == i + 1
  {
    if src[i] == '\\' then
      var c := GetChar(src, i + 1);
      if c == 'n' || c == 'r' || c == 't' || c == '\\' then i + 2
      else if c == 'u' || c == 'x' then HexLoop(src, i + 2, if c == 'u' then 8 else 2)
      else i + 1
    else i + 1
  }

  /**
   * The string-body loops of `expandToken` and `expandTemplateString`: whole
   * quoted characters up to the end, a `"`, or (when `brace`) a `{`.
   */
  function QuotedRunEnd(src: string, i: nat, brace: bool): (r: nat)
    requires i <= |src|
    ensures i <= r <= |src|
    ensures r == |src| || src[r] == '"' || (brace && src[r] == '{')
    decreases |src| - i
  {
    if i < |src| && src[i] != '"' && !(brace && src[i] == '{') then QuotedRunEnd(src, QuotedCharEnd(src, i), brace)
    else i
  }

  // ---------------------------------------------------------------------------
  // Tokens

  /** Character classes whose runs `expandToken` takes whole. */
  datatype RunClass = ConcatRun | IdentRun

  predicate InRun(c: char, k: RunClass) {
    match k
    case ConcatRun => IsConcatSymbol(c)
    case IdentRun => IsLegalIdent(c)
  }

  /** The end of the run of class `k` starting at `i`: it is maximal. */
  function RunEnd(src: string, i: nat, k: RunClass): (r: nat)
    requires i <= |src|
    ensures i <= r <= |src|
    ensures forall j :: i <= j < r ==> InRun(src[j], k)
    ensures !InRun(GetChar(src, r), k)
    decreases |src| - i
  {
    if InRun(GetChar(src, i), k) then RunEnd(src, i + 1, k) else i
  }

  /** The exponent and suffix part of a numeral, from position `k` after the mantissa. */
  function NumberTail(src: string, k: nat): (r: Scan)
    requires k <= |src|
    ensures k <= r.end <= |src|
    ensures r.kind in {Int, Real, Unknown}
  {
    if GetChar(src, k) == 'e' then
      var k1 := k + 1;
      if GetChar(src, k1) == '+' || GetChar(src, k1) == '-' then
        if IsDigit(GetChar(src, k1 + 1)) then Scan(NumSeqEnd(src, k1 + 1), Int) else Scan(k1 + 1, Unknown)
      else if !IsDigit(GetChar(src, k1)) then Scan(k1, Unknown)
      else Scan(NumSeqEnd(src, k1), Int)
    else if GetChar(src, k) == 'f' || GetChar(src, k) == 'd' then Scan(k + 1, Real)
    else Scan(k, Int)
  }

  /** The numeric branch of `expandToken`, at a digit. */
  function NumberScan(src: string, i: nat): (r: Scan)
    requires i < |src|
    ensures i < r.end <= |src|
    ensures r.kind in {Int, Real, Unknown}
  {
    var j := NumSeqEnd(src, i);
    if GetChar(src, j) == '.' then
      if IsDigit(GetChar(src, j + 1)) then NumberTail(src, NumSeqEnd(src, j + 1)) else Scan(j, Int)
    else NumberTail(src, j)
  }

  /** How a string body that stopped at `j` ends: at `{`, at `"`, or unterminated. */
  function CloseString(src: string, j: nat, atBrace: TokenType, atQuote: TokenType): (r: Scan)
    requires j <= |src|
    ensures GetChar(src, j) == '{' ==> r == Scan(j + 1, atBrace)
    ensures GetChar(src, j) == '"' ==> r == Scan(j + 1, atQuote)
    ensures GetChar(src, j) != '{' && GetChar(src, j) != '"' ==> r == Scan(j, Unknown)
  {
    if GetChar(src, j) == '{' then Scan(j + 1, atBrace)
    else if GetChar(src, j) == '"' then Scan(j + 1, atQuote)
    else Scan(j, Unknown)
  }

  /** `expandTemplateString(i)`: `}` then a string body closed by `{` (middle) or `"` (end). */
  function ExpandTemplate(src: string, i: nat): (r: Scan)
    requires i < |src|
    ensures i <= r.end <= |src|
    ensures src[i] != '}' ==> r == Scan(i, Unknown)
    ensures r.kind in {StringMiddle, StringEnd, Unknown}
  {
    if GetChar(src, i) == '}' then CloseString(src, QuotedRunEnd(src, i + 1, true), StringMiddle, StringEnd)
    else Scan(i, Unknown)
  }

  /** The text at `i` starts a template string `f"`. */
  predicate StartsTemplate(src: string, i: nat) {
    i + 1 < |src| && src[i] == 'f' && src[i + 1] == '"'
  }

  /**
   * `expandToken(i, guide)`: the end and type of the token that starts at
   * `i`. The end never passes the end of the text; at the end of the text
   * the token is `EOF` and empty.
   */
  function Expand(src: string, i: nat, guide: Guidance): (r: Scan)
    ensures i >= |src| ==> r == Scan(i, EOF)
    ensures i < |src| ==> i <= r.end <= |src| && r.kind != EOF
  {
    if i >= |src| then Scan(i, EOF)
    else if guide == TemplateString then ExpandTemplate(src, i)
    else if StartsTemplate(src, i) then CloseString(src, QuotedRunEnd(src, i + 2, true), StringBegin, StringFull)
    else if src[i] == '"' then
      var j := QuotedRunEnd(src, i + 1, false);
      if GetChar(src, j) == '"' then Scan(j + 1, StringFull) else Scan(j, Unknown)
    else if src[i] == '\'' then
      if i + 1 < |src| && src[i + 1] != '\'' then
        var j := QuotedCharEnd(src, i + 1);
        if GetChar(src, j) == '\'' then Scan(j + 1, Char) else Scan(j, Unknown)
      else Scan(i + 1, Unknown)
    else if IsDigit(src[i]) then NumberScan(src, i)
    else if IsSingleOnlySymbol(src[i]) then Scan(i + 1, Symbol)
    else if IsConcatSymbol(src[i]) then Scan(RunEnd(src, i, ConcatRun), Symbol)
    else if IsLegalIdent(src[i]) then Scan(RunEnd(src, i, IdentRun), Identifier)
    else Scan(i, Unknown)
  }

  /** A single-only symbol is a one-character `Symbol` token. */
  lemma SingleSymbolToken(src: string, i: nat)
    requires i < |src| && IsSingleOnlySymbol(src[i])
    ensures Expand(src, i, NoGuidance) == Scan(i + 1, Symbol)
  {
    CharClassesDisjoint(src[i]);
  }

  /** Operator characters and identifier characters form maximal runs. */
  lemma RunTokensAreMaximal(src: string, i: nat)
    requires i < |src|
    ensures var r := Expand(src, i, NoGuidance);
      IsConcatSymbol(src[i]) ==>
        && r.kind == Symbol && i < r.end
        && (forall j :: i <= j < r.end ==> IsConcatSymbol(src[j])) && !IsConcatSymbol(GetChar(src, r.end))
    ensures var r := Expand(src, i, NoGuidance);
      IsLegalIdent(src[i]) && !IsDigit(src[i]) && !StartsTemplate(src, i) ==>
        && r.kind == Identifier && i < r.end
        && (forall j :: i <= j < r.end ==> IsLegalIdent(src[j])) && !IsLegalIdent(GetChar(src, r.end))
  {
    CharClassesDisjoint(src[i]);
  }

  /**
   * How numerals are classified. With `j` the end of the leading digits:
   * an `f` or `d` right after them gives `Real`; a `.` not followed by a
   * digit gives `Int` ending before the `.`; an `e` followed by neither a
   * sign nor a digit gives `Unknown`; every `Real` ends with its suffix.
   */
  lemma NumberClassification(src: string, i: nat)
    requires i < |src| && IsDigit(src[i])
    ensures var r := Expand(src, i, NoGuidance);
      var j := NumSeqEnd(src, i);
      && (GetChar(src, j) == 'f' || GetChar(src, j) == 'd' ==> r == Scan(j + 1, Real))
      && (GetChar(src, j) == '.' && !IsDigit(GetChar(src, j + 1)) ==> r == Scan(j, Int))
      && (GetChar(src, j) == 'e' && !IsDigit(GetChar(src, j + 1)) && GetChar(src, j + 1) != '+' && GetChar(src, j + 1) != '-'
          ==> r == Scan(j + 1, Unknown))
      && r.kind in {Int, Real, Unknown}
      && (r.kind == Real ==> i < r.end && (src[r.end - 1] == 'f' || src[r.end - 1] == 'd'))
  {
    var j := NumSeqEnd(src, i);
    assert Expand(src, i, NoGuidance) == NumberScan(src, i);
  }

  /** `3e8` and `0.0` are `Int` tokens, `0f` is `Real`, and `0.` is the `Int` `0` before a `.` symbol. */
  lemma NumberExamples()
    ensures Expand("3e8", 0, NoGuidance) == Scan(3, Int)
    ensures Expand("0.0", 0, NoGuidance) == Scan(3, Int)
    ensures Expand("0f", 0, NoGuidance) == Scan(2, Real)
    ensures Expand("0.", 0, NoGuidance) == Scan(1, Int)
  {
    assert NumSeqEnd("3e8", 0) == 1 && NumSeqEnd("3e8", 2) == 3;
    assert NumSeqEnd("0.0", 0) == 1 && NumSeqEnd("0.0", 2) == 3;
    assert NumSeqEnd("0f", 0) == 1;
    assert NumSeqEnd("0.", 0) == 1;
  }

  /**
   * How strings are classified: a `"` body closed by `"` is `StringFull`
   * ending after the quote, otherwise `Unknown`; an `f"` body is
   * `StringBegin` when it stops at `{`, `StringFull` at `"`, otherwise
   * `Unknown`; under template guidance a `}` body is `StringMiddle` at `{`,
   * `StringEnd` at `"`, and anything not starting with `}` is `Unknown`.
   */
  lemma StringClassification(src: string, i: nat)
    requires i < |src|
    ensures src[i] == '"' ==>
      var j := QuotedRunEnd(src, i + 1, false);
      Expand(src, i, NoGuidance) == if j < |src| then Scan(j + 1, StringFull) else Scan(j, Unknown)
    ensures StartsTemplate(src, i) ==>
      var j := QuotedRunEnd(src, i + 2, true);
      Expand(src, i, NoGuidance) ==
        if j == |src| then Scan(j, Unknown) else if src[j] == '{' then Scan(j + 1, StringBegin) else Scan(j + 1, StringFull)
    ensures src[i] == '}' ==>
      var j := QuotedRunEnd(src, i + 1, true);
      Expand(src, i, TemplateString) ==
        if j == |src| then Scan(j, Unknown) else if src[j] == '{' then Scan(j + 1, StringMiddle) else Scan(j + 1, StringEnd)
    ensures src[i] != '}' ==> Expand(src, i, TemplateString) == Scan(i, Unknown)
  {
  }

  // ---------------------------------------------------------------------------
  // Whole tokens

  /**
   * The token `next(start, guide)` intends: whitespace and comments skipped,
   * then the characters `expandToken` reads from there.
   */
  function Lex(src: string, start: nat, guide: Guidance): (t: Token)
    requires start <= |src|
    ensures start <= t.start <= |src| && t.start + |t.text| <= |src|
    ensures t.text == src[t.start..t.start + |t.text|]
    ensures t.start == SpaceEnd(src, start)
    ensures t.kind == Expand(src, t.start, guide).kind
    ensures t.start + |t.text| == Expand(src, t.start, guide).end
  {
    var begin := SpaceEnd(src, start);
    var s := Expand(src, begin, guide);
    Token(begin, src[begin..s.end], s.kind)
  }

  /**
   * The token as src/frontend/lexer/lexer.hpp:95 builds it: from
   * `realStartIndex` but `endIndex - startIndex` long, so it runs on by the
   * length of the skipped whitespace (clipped at the end of the text, as
   * `substr` does).
   */
  function LexAsWritten(src: string, start: nat, guide: Guidance): (t: Token)
    requires start <= |src|
    ensures t.start == Lex(src, start, guide).start && t.kind == Lex(src, start, guide).kind
    ensures |Lex(src, start, guide).text| <= |t.text|
    ensures var n := Expand(src, t.start, guide).end - start;
      |t.text| == if t.start + n <= |src| then n else |src| - t.start
  {
    var begin := SpaceEnd(src, start);
    var s := Expand(src, begin, guide);
    var stop := if begin + (s.end - start) <= |src| then begin + (s.end - start) else |src|;
    Token(begin, src[begin..stop], s.kind)
  }

  /** Without leading whitespace the two agree; after one space the as-written token swallows the next character. */
  lemma LexAsWrittenOverruns()
    ensures forall src: string, start: nat, g: Guidance :: start <= |src| && SpaceEnd(src, start) == start ==>
      LexAsWritten(src, start, g) == Lex(src, start, g)
    ensures Lex(" ab+", 0, NoGuidance) == Token(1, "ab", Identifier)
    ensures LexAsWritten(" ab+", 0, NoGuidance) == Token(1, "ab+", Identifier)
  {
    var src := " ab+";
    assert SpaceEnd(src, 1) == 1;
    assert SpaceEnd(src, 0) == 1;
    assert RunEnd(src, 3, IdentRun) == 3;
    assert RunEnd(src, 1, IdentRun) == 3;
    assert src[1..3] == "ab" && src[1..4] == "ab+";
  }

  /**
   * `next` as written at src/frontend/lexer/lexer.hpp:89-95: it returns the
   * cached entry when the key is NOT in the cache, which dereferences the end
   * iterator (undefined, `None` here), and recomputes when it is.
   */
  function NextAsWritten(src: string, cache: map<nat, Token>, start: nat, guide: Guidance): (r: (Option<Token>, map<nat, Token>))
    requires start <= |src|
  {
    match GetCacheKey(start, guide)
    case None => (None, cache)
    case Some(key) =>
      if key !in cache then (None, cache)
      else
        var t := LexAsWritten(src, start, guide);
        (Some(t), cache[key := t])
  }

  /** The cache starts empty and only the hit path fills it, so as written no call ever yields a token. */
  lemma NextAsWrittenNeverYields(src: string, start: nat, guide: Guidance)
    requires start <= |src|
    ensures NextAsWritten(src, map[], start, guide) == (None, map[])
  {
  }

  // ---------------------------------------------------------------------------
  // The lexer context

  /** `LexerContext`: the source text and the memo table of tokens already read, by cache key. */
  class LexerContext {
    const src: string
    var cache: map<nat, Token>

    /** Every memoised token is the one `Lex` gives for the key's position and guidance. */
    ghost predicate Valid()
      reads this
    {
      forall key :: key in cache ==> key / GuidanceCount <= |src| && cache[key] == Lex(src, key / GuidanceCount, KeyGuidance(key))
    }

    constructor (src: string)
      ensures Valid() && this.src == src && cache == map[]
    {
      this.src := src;
      cache := map[];
    }

    /**
     * `next(start, guide)` with the memo lookup the right way round: a
     * cached token is returned as is, a new one is read and cached. `None`
     * is the abort of `getCacheKey`.
     */
    method Next(start: nat, guide: Guidance) returns (r: Option<Token>)
      requires Valid() && start <= |src|
      modifies this
      ensures Valid()
      ensures GetCacheKey(start, guide).None? ==> r.None? && cache == old(cache)
      ensures GetCacheKey(start, guide).Some? ==>
        r == Some(Lex(src, start, guide)) && cache == old(cache)[GetCacheKey(start, guide).value := r.value]
    {
      var key := GetCacheKey(start, guide);
      if key.None? {
        return None;
      }
      CacheKeyInjective(start, guide, start, guide);
      if key.value in cache {
        return Some(cache[key.value]);
      }
      var realStart := SkipSpaceAndComment(start);
      var s := ExpandToken(realStart, guide);
      var t := Token(realStart, src[realStart..s.end], s.kind);
      cache := cache[key.value := t];
      r := Some(t);
    }

    /** `first()`: the token at the start of the text. */
    method First() returns (r: Option<Token>)
      requires Valid()
      modifies this
      ensures Valid() && r == Some(Lex(src, 0, NoGuidance))
      ensures cache == old(cache)[0 := r.value]
    {
      r := Next(0, NoGuidance);
    }

    /** `next(pre, guide)`: the token after `pre`, read from where `pre`'s characters end. */
    method NextAfter(pre: Token, guide: Guidance) returns (r: Option<Token>)
      requires Valid() && pre.start + |pre.text| <= |src|
      modifies this
      ensures Valid()
      ensures GetCacheKey(pre.start + |pre.text|, guide).Some? ==> r == Some(Lex(src, pre.start + |pre.text|, guide))
      ensures GetCacheKey(pre.start + |pre.text|, guide).None? ==> r.None?
      ensures forall key :: key in old(cache) ==> key in cache && cache[key] == old(cache)[key]
    {
      r := Next(pre.start + |pre.text|, guide);
    }

    /** `skipSpaceAndComment(i)`. */
    method SkipSpaceAndComment(i: nat) returns (index: nat)
      requires i <= |src|
      ensures index == SpaceEnd(src, i)
    {
      index := i;
      while (index < |src| && IsSpace(src[index])) || StartsComment(src, index)
        invariant index <= |src| && SpaceEnd(src, index) == SpaceEnd(src, i)
        decreases |src| - index
      {
        ghost var before := index;
        while index < |src| && IsSpace(src[index])
          invariant before <= index <= |src| && SpaceEnd(src, index) == SpaceEnd(src, i)
          invariant index == before ==> StartsComment(src, index) || (index < |src| && IsSpace(src[index]))
          decreases |src| - index
        {
          index := index + 1;
        }
        if StartsComment(src, index) {
          ghost var comment := index;
          index := index + 2;
          while index < |src| && src[index] != '\n'
            invariant comment + 2 <= index <= |src| && LineEnd(src, index) == LineEnd(src, comment + 2)
            decreases |src| - index
          {
            index := index + 1;
          }
        }
      }
    }

    /** `skipNumSeq(index)`: the index it leaves behind. */
    method SkipNumSeq(i: nat) returns (index: nat)
      ensures index == NumSeqEnd(src, i)
    {
      index := i + 1;
      while IsDigit(GetChar(src, index))
        invariant i < index && DigitsEnd(src, index) == DigitsEnd(src, i + 1)
        decreases |src| - index
      {
        index := index + 1;
      }
    }

    /** `skipQuotedChar(i)`. */
    method SkipQuotedChar(i: nat) returns (index: nat)
      requires i < |src|
      ensures index == QuotedCharEnd(src, i)
    {
      index := i;
      if GetChar(src, index) == '\\' {
        index := index + 1;
        var c := GetChar(src, index);
        if c == 'n' || c == 'r' || c == 't' || c == '\\' {
          return index + 1;
        } else if c == 'u' || c == 'x' {
          index := index + 1;
          var len := if c == 'u' then 8 else 2;
          for k := 0 to len
            invariant HexLoop(src, index, len - k) == HexLoop(src, i + 2, len)
          {
            c := GetChar(src, index);
            if IsHexDigit(c) {
              index := index + 1;
            }
          }
          return index;
        }
      } else {
        return index + 1;
      }
    }

    /** A string body: `skipQuotedChar` until the end, a `"` or (when `brace`) a `{`. */
    method SkipQuotedRun(i: nat, brace: bool) returns (index: nat)
      requires i <= |src|
      ensures index == QuotedRunEnd(src, i, brace)
    {
      index := i;
      while index < |src| && src[index] != '"' && !(brace && src[index] == '{')
        invariant index <= |src| && QuotedRunEnd(src, index, brace) == QuotedRunEnd(src, i, brace)
        decreases |src| - index
      {
        index := SkipQuotedChar(index);
      }
    }

    /** `expandTemplateString(i)`. */
    method ExpandTemplateString(i: nat) returns (s: Scan)
      requires i < |src|
      ensures s == ExpandTemplate(src, i)
    {
      var index := i;
      if GetChar(src, index) == '}' {
        index := SkipQuotedRun(index + 1, true);
        if GetChar(src, index) == '{' {
          return Scan(index + 1, StringMiddle);
        } else if GetChar(src, index) == '"' {
          return Scan(index + 1, StringEnd);
        }
      }
      return Scan(index, Unknown);
    }

    /** `expandToken(i, guide)`. */
    method ExpandToken(i: nat, guide: Guidance) returns (s: Scan)
      ensures s == Expand(src, i, guide)
    {
      var index := i;
      if index >= |src| {
        return Scan(index, EOF);
      }
      var firstChar := GetChar(src, index);
      if guide == TemplateString {
        s := ExpandTemplateString(index);
      } else if StartsTemplate(src, index) {
        index := SkipQuotedRun(index + 2, true);
        if GetChar(src, index) == '{' {
          return Scan(index + 1, StringBegin);
        } else if GetChar(src, index) == '"' {
          return Scan(index + 1, StringFull);
        }
        return Scan(index, Unknown);
      } else if firstChar == '"' {
        index := SkipQuotedRun(index + 1, false);
        if GetChar(src, index) == '"' {
          return Scan(index + 1, StringFull);
        }
        return Scan(index, Unknown);
      } else if firstChar == '\'' {
        index := index + 1;
        if index < |src| && src[index] != '\'' {
          index := SkipQuotedChar(index);
          if GetChar(src, index) == '\'' {
            return Scan(index + 1, Char);
          }
        }
        return Scan(index, Unknown);
      } else if IsDigit(firstChar) {
        s := ExpandNumber(index);
      } else if IsSingleOnlySymbol(firstChar) {
        return Scan(index + 1, Symbol);
      } else if IsConcatSymbol(firstChar) {
        while IsConcatSymbol(GetChar(src, index))
          invariant i <= index <= |src| && RunEnd(src, index, ConcatRun) == RunEnd(src, i, ConcatRun)
          decreases |src| - index
        {
          index := index + 1;
        }
        return Scan(index, Symbol);
      } else if IsLegalIdent(firstChar) {
        while IsLegalIdent(GetChar(src, index))
          invariant i <= index <= |src| && RunEnd(src, index, IdentRun) == RunEnd(src, i, IdentRun)
          decreases |src| - index
        {
          index := index + 1;
        }
        return Scan(index, Identifier);
      } else {
        return Scan(index, Unknown);
      }
    }

    /** The numeric branch of `expandToken`, at a digit. */
    method ExpandNumber(i: nat) returns (s: Scan)
      requires i < |src| && IsDigit(src[i])
      ensures s == NumberScan(src, i)
    {
      var index := SkipNumSeq(i);
      if GetChar(src, index) == '.' {
        index := index + 1;
        if IsDigit(GetChar(src, index)) {
          index := SkipNumSeq(index);
        } else {
          return Scan(index - 1, Int);
        }
      }
      if GetChar(src, index) == 'e' {
        index := index + 1;
        if GetChar(src, index) == '+' || GetChar(src, index) == '-' {
          index := index + 1;
        } else if !IsDigit(GetChar(src, index)) {
          return Scan(index, Unknown);
        }
        if IsDigit(GetChar(src, index)) {
          index := SkipNumSeq(index);
        } else {
          return Scan(index, Unknown);
        }
      } else if GetChar(src, index) == 'f' || GetChar(src, index) == 'd' {
        return Scan(index + 1, Real);
      }
      return Scan(index, Int);
    }
  }
}

=== FILE: obj_pool.dfy ===
/**
 * The chunked object pool and the singly linked list built on it
 * (src/tools/obj_pool.hpp).
 *
 * A pool hands out slots of `chunkCount` objects at a time; a slot is named
 * by the position of its chunk in `pool` and its index in the chunk, and the
 * null pointer is `Null`. Chunks are only released with the pool, so a slot
 * is never handed out twice.
 */
module ObjectPools {

  /** A pointer into the pool: null, or slot `index` of chunk `chunk`. */
  datatype Ptr = Null | At(chunk: nat, index: nat)

  /** `c` is `ceil(k / n)`: the smallest chunk count whose slots cover `k` calls. */
  predicate IsCeiling(c: nat, k: nat, n: nat) {
    (c == 0 && k == 0) || (c > 0 && (c - 1) * n < k <= c * n)
  }

  /** `ObjectPool<OBJ, CHUNK_CNT>`. */
  class ObjectPool {
    /** `CHUNK_CNT`: objects per chunk. */
    const chunkCount: nat
    /** Number of chunks in `pool`; chunk `c` is the `c`-th one allocated. */
    var chunks: nat
    var next: Ptr
    var end: Ptr
    /** Calls to `get` so far, and the slots they returned. */
    ghost var calls: nat
    ghost var issued: set<Ptr>

    /**
     * With no chunk yet, `next` and `end` are both null. Otherwise they point
     * into the last chunk: `end` one past its last slot and `next` at the
     * first slot not yet handed out; every earlier slot of every chunk has
     * been handed out, and nothing else.
     */
    ghost predicate Valid()
      reads this
    {
      && chunkCount > 0
      && (chunks == 0 ==> next == Null && end == Null && calls == 0)
      && (chunks > 0 ==>
            && end == At(chunks - 1, chunkCount)
            && next.At? && next.chunk == chunks - 1 && next.index <= chunkCount
            && calls == (chunks - 1) * chunkCount + next.index
            && (chunks - 1) * chunkCount < calls)
      && (forall p :: p in issued <==> p.At? && IssuedSlot(p.chunk, p.index))
    }

    /** Slot `index` of chunk `chunk` has been handed out. */
    ghost predicate IssuedSlot(chunk: nat, index: nat)
      reads this
    {
      index < chunkCount && (chunk + 1 < chunks || (chunk + 1 == chunks && next.At? && index < next.index))
    }

    /** `ObjectPool()`: no chunks, and `next == end`, so the first `get` allocates. */
    constructor (chunkCount: nat)
      requires chunkCount > 0
      ensures Valid() && this.chunkCount == chunkCount
      ensures chunks == 0 && next == end && issued == {} && calls == 0
    {
      this.chunkCount := chunkCount;
      chunks := 0;
      next := Null;
      end := Null;
      calls := 0;
      issued := {};
    }

    /**
     * `get()`: when the current chunk is used up (`next == end`) a new chunk
     * is appended and its slot 0 returned; otherwise `next` is returned and
     * advanced. The slot returned was never handed out before, and the chunk
     * count stays `ceil(calls / chunkCount)`.
     */
    method Get() returns (p: Ptr)
      requires Valid()
      modifies this
      ensures Valid()
      ensures p.At? && p !in old(issued) && issued == old(issued) + {p}
      ensures old(next) == old(end) ==> chunks == old(chunks) + 1 && p == At(old(chunks), 0)
      ensures old(next) != old(end) ==> chunks == old(chunks) && p == old(next)
      ensures next == At(p.chunk, p.index + 1)
      ensures calls == old(calls) + 1 && IsCeiling(chunks, calls, chunkCount)
    {
      if next == end {
        next := At(chunks, 0);
        end := At(chunks, chunkCount);
        chunks := chunks + 1;
      }
      p := next;
      next := At(next.chunk, next.index + 1);
      calls := calls + 1;
      issued := issued + {p};
    }
  }

  /** `PooledList<T>::Node`: a value and the next node. */
  datatype Node<T> = Node(value: T, next: Ptr)

  /** The values held by the nodes `spine`, in order. */
  ghost function SpineValues<T>(nodes: map<Ptr, Node<T>>, spine: seq<Ptr>): (s: seq<T>)
    requires forall i :: 0 <= i < |spine| ==> spine[i] in nodes
    ensures |s| == |spine| && forall i :: 0 <= i < |spine| ==> s[i] == nodes[spine[i]].value
  {
    if spine == [] then [] else [nodes[spine[0]].value] + SpineValues(nodes, spine[1..])
  }

  /**
   * `spine` is the chain of nodes that starts at `head` and follows `next`
   * until null, every node of it present in `nodes`.
   */
  ghost predicate Linked<T>(head: Ptr, nodes: map<Ptr, Node<T>>, spine: seq<Ptr>) {
    && (|spine| == 0 <==> head == Null)
    && (|spine| > 0 ==> spine[0] == head)
    && (forall i :: 0 <= i < |spine| ==> spine[i] in nodes)
    && (forall i {:trigger nodes[spine[i]]} :: 0 <= i < |spine| ==>
          nodes[spine[i]].next == if i + 1 < |spine| then spine[i + 1] else Null)
  }

  /**
   * A node put in a slot not yet in use, pointing at the old head, becomes
   * the new head of a chain one longer, whose values are `v` followed by the
   * old ones.
   */
  lemma PrependKeepsLinked<T>(head: Ptr, nodes: map<Ptr, Node<T>>, spine: seq<Ptr>, p: Ptr, v: T)
    requires Linked(head, nodes, spine) && p.At? && p !in nodes
    ensures Linked(p, nodes[p := Node(v, head)], [p] + spine)
    ensures SpineValues(nodes[p := Node(v, head)], [p] + spine) == [v] + SpineValues(nodes, spine)
  {
    var after := nodes[p := Node(v, head)];
    var longer := [p] + spine;
    forall i | 0 <= i < |longer|
      ensures after[longer[i]].next == if i + 1 < |longer| then longer[i + 1] else Null
    {
      if i > 0 {
        assert longer[i] == spine[i - 1] && nodes[spine[i - 1]].next == after[longer[i]].next;
      }
    }
    assert longer[1..] == spine;
    assert SpineValues(after, spine) == SpineValues(nodes, spine);
  }

  /**
   * `PooledList<T>`: a singly linked list whose nodes live in `pool`'s slots.
   * `nodes` is the content of the slots the list has constructed nodes in,
   * and `spine` the nodes reached from `head`, in order.
   */
  class PooledList<T> {
    const pool: ObjectPool
    var head: Ptr
    var nodes: map<Ptr, Node<T>>
    ghost var spine: seq<Ptr>

    ghost predicate Valid()
      reads this, pool
    {
      && pool.Valid()
      && (forall p :: p in nodes ==> p in pool.issued)
      && Linked(head, nodes, spine)
    }

    /** The values of the list, from the head. */
    ghost function Contents(): (s: seq<T>)
      reads this, pool
      requires Valid()
      ensures |s| == |spine|
    {
      SpineValues(nodes, spine)
    }

    /** `PooledList(p)`: an empty list over `p`. */
    constructor (p: ObjectPool)
      requires p.Valid()
      ensures Valid() && pool == p && head == Null && nodes == map[] && Contents() == []
    {
      pool := p;
      head := Null;
      nodes := map[];
      spine := [];
    }

    /**
     * `emplace_front(v)`: a node holding `v` is constructed in a fresh slot
     * of the pool and becomes the head; its `next` is the old head. The pool,
     * which other lists may share, only gains that one slot, so their nodes
     * stay in issued slots.
     */
    method EmplaceFront(v: T)
      requires Valid()
      modifies this, pool
      ensures Valid()
      ensures head !in old(pool.issued) && pool.issued == old(pool.issued) + {head}
      ensures pool.calls == old(pool.calls) + 1 && IsCeiling(pool.chunks, pool.calls, pool.chunkCount)
      ensures head !in old(nodes) && nodes == old(nodes)[head := Node(v, old(head))]
      ensures Contents() == [v] + old(Contents())
    {
      var p := pool.Get();
      PrependKeepsLinked(head, nodes, spine, p, v);
      nodes := nodes[p := Node(v, head)];
      head := p;
      spine := [p] + spine;
    }
  }

  /**
   * Lists share a pool (`Pool* pool`): a node added to one list takes a slot
   * no other list uses, so every other list over the same pool stays valid
   * and keeps its contents.
   */
  method EmplaceFrontShared<T>(a: PooledList<T>, b: PooledList<T>, v: T)
    requires a != b && a.pool == b.pool && a.Valid() && b.Valid()
    modifies a, a.pool
    ensures a.Valid() && a.Contents() == [v] + old(a.Contents())
    ensures b.Valid() && b.Contents() == old(b.Contents())
  {
    a.EmplaceFront(v);
  }
}

=== FILE: string_pool.dfy ===
/**
 * The string interning pool of src/tools/string_pool.hpp.
 *
 * `storage` is the deque of owned strings; `table` is the hash set of views
 * into it, represented here as a map from a string's contents to the
 * position in `storage` of its one stored copy. A `StringToken` is the
 * address of a view in `table`; since each stored copy has exactly one view,
 * the position of the copy identifies the token.
 */
module StringPools {

  /** `StringToken`: which interned string the token denotes. */
  datatype StringToken = StringToken(id: nat)

  /**
   * The pool invariant: every stored string has its view in `table`, the
   * view leads back to it, and no string is stored twice.
   */
  ghost predicate PoolInvariant(storage: seq<string>, table: map<string, nat>) {
    && (forall s :: s in table ==> table[s] < |storage| && storage[table[s]] == s)
    && (forall i :: 0 <= i < |storage| ==> storage[i] in table && table[storage[i]] == i)
  }

  /** Under the invariant two strings share a token exactly when they are equal. */
  lemma TokensIdentifyStrings(storage: seq<string>, table: map<string, nat>, s: string, u: string)
    requires PoolInvariant(storage, table) && s in table && u in table
    ensures table[s] == table[u] <==> s == u
  {
  }

  /** The stored strings are pairwise distinct. */
  lemma StorageDistinct(storage: seq<string>, table: map<string, nat>, i: nat, j: nat)
    requires PoolInvariant(storage, table) && i < |storage| && j < |storage|
    ensures storage[i] == storage[j] <==> i == j
  {
  }

  class StringPool {
    var storage: seq<string>
    var table: map<string, nat>

    ghost predicate Valid()
      reads this
    {
      PoolInvariant(storage, table)
    }

    constructor ()
      ensures Valid() && storage == [] && table == map[]
    {
      storage := [];
      table := map[];
    }

    /** The string a token denotes (`*token.data`). */
    function View(t: StringToken): (s: string)
      reads this
      requires Valid() && t.id < |storage|
      ensures s in table && table[s] == t.id
    {
      storage[t.id]
    }

    /** The token `t` denotes the stored string `s`. */
    ghost predicate Denotes(t: StringToken, s: string)
      reads this
    {
      t.id < |storage| && storage[t.id] == s
    }

    /**
     * `take(s)`: the token of `s`, storing a copy of `s` first if the pool
     * does not hold one. A hit changes nothing; a miss appends one string to
     * `storage` and one view to `table`. Strings stored earlier keep their
     * positions, so earlier tokens keep denoting the same strings.
     */
    method Take(s: string) returns (t: StringToken)
      requires Valid()
      modifies this
      ensures Valid()
      ensures t.id < |storage| && View(t) == s
      ensures s in old(table) ==> t == StringToken(old(table)[s]) && storage == old(storage) && table == old(table)
      ensures s !in old(table) ==>
        && t == StringToken(|old(storage)|)
        && storage == old(storage) + [s] && table == old(table)[s := |old(storage)|]
      ensures |old(storage)| <= |storage| && storage[..|old(storage)|] == old(storage)
      ensures Denotes(t, s) && forall u, x :: old(Denotes(u, x)) ==> Denotes(u, x)
    {
      if s !in table {
        storage := storage + [s];
        table := table[s := |storage| - 1];
      }
      t := StringToken(table[s]);
    }
  }
}

=== FILE: type_manager.dfy ===
/**
 * The type table of src/ir/type.hpp.
 *
 * `TypeManager` owns the vector of layouts and the vector of types; a type
 * token is a position in `types`. Array types and tuple types are memoised
 * through `findCached`, keyed by element type and by member list.
 */
module TypeManagers {
  import opened StringPools

  /** `TypeToken` and `LayoutToken`: positions in `types` and `layouts`. */
  type TypeToken = nat
  type LayoutToken = nat

  /** `Layout`: the member types of a tuple or record. */
  type Layout = seq<TypeToken>

  /**
   * The variants of `Type::InnerType` that the type manager creates: an array
   * type (`size` empty for a dynamic array), a named base type and a tuple
   * type.
   */
  datatype Type =
    | ArrayType(size: seq<nat>, elementType: TypeToken)
    | BaseType(isClass: bool, name: StringToken)
    | TupleType(layout: LayoutToken)

  /**
   * `findCached(key, cache, c)` once `c(key)` has produced `created`: the
   * stored token on a hit, with the cache unchanged; `created`, now stored
   * under `key`, on a miss. Entries already present never change.
   */
  function FindCached<K(==)>(cache: map<K, TypeToken>, key: K, created: TypeToken): (r: (TypeToken, map<K, TypeToken>))
    ensures key in cache ==> r == (cache[key], cache)
    ensures key !in cache ==> r.0 == created
    ensures key in r.1 && r.1[key] == r.0 && r.1.Keys == cache.Keys + {key}
    ensures forall k :: k in cache ==> k in r.1 && r.1[k] == cache[k]
  {
    if key in cache then (cache[key], cache) else (created, cache[key := created])
  }

  /** A second lookup of the same key hits, whatever the callback would create. */
  lemma FindCachedIdempotent<K>(cache: map<K, TypeToken>, key: K, created: TypeToken, again: TypeToken)
    ensures var first := FindCached(cache, key, created);
      FindCached(first.1, key, again) == first
  {
  }

  /** Every memoised array type is the array of its key, at its token. */
  ghost predicate ArrayCacheSound(types: seq<Type>, arrayType: map<TypeToken, TypeToken>) {
    forall b :: b in arrayType ==> arrayType[b] < |types| && types[arrayType[b]] == ArrayType([], b)
  }

  /** Distinct element types get distinct array tokens. */
  lemma ArrayTokensDistinct(types: seq<Type>, arrayType: map<TypeToken, TypeToken>, b: TypeToken, c: TypeToken)
    requires ArrayCacheSound(types, arrayType) && b in arrayType && c in arrayType
    ensures arrayType[b] == arrayType[c] <==> b == c
  {
  }

  /**
   * The callback of `tupleTypeOf` creates nothing and answers the last type,
   * so two different member lists looked up in turn on a table of `n` types
   * share the token `n - 1`.
   */
  lemma TupleTokensCollide(cache: map<seq<TypeToken>, TypeToken>, m1: seq<TypeToken>, m2: seq<TypeToken>, n: nat)
    requires n > 0 && m1 !in cache && m2 !in cache && m1 != m2
    ensures var first := FindCached(cache, m1, n - 1);
      var second := FindCached(first.1, m2, n - 1);
      first.0 == second.0 == n - 1 && second.1[m1] == second.1[m2]
  {
  }

  class TypeManager {
    var layouts: seq<Layout>
    var types: seq<Type>
    var arrayType: map<TypeToken, TypeToken>
    var tupleType: map<seq<TypeToken>, TypeToken>
    /** The six types the constructor seeds. */
    ghost const seeds: seq<Type>

    ghost predicate Valid()
      reads this
    {
      && |layouts| >= 1 && layouts[0] == []
      && |seeds| == 6 && |types| >= 6 && types[..6] == seeds
      && seeds[0] == TupleType(0)
      && (forall t :: 1 <= t <= 4 ==> seeds[t].BaseType? && !seeds[t].isClass)
      && seeds[5].BaseType? && seeds[5].isClass
      && ArrayCacheSound(types, arrayType)
      && (forall m :: m in tupleType ==> tupleType[m] < |types|)
    }

    /**
     * `TypeManager(sp)`: one empty layout, then the tuple of that layout at
     * token 0, the plain base types `dynamic`, `i64`, `u64`, `f64` at tokens
     * 1 to 4 and the class base type `any` at token 5, their names interned
     * in `sp`.
     */
    constructor (sp: StringPool)
      requires sp.Valid()
      modifies sp
      ensures Valid() && sp.Valid()
      ensures layouts == [[]] && |types| == 6 && arrayType == map[] && tupleType == map[]
      ensures types[1].BaseType? && sp.Denotes(types[1].name, "dynamic")
      ensures types[2].BaseType? && sp.Denotes(types[2].name, "i64")
      ensures types[3].BaseType? && sp.Denotes(types[3].name, "u64")
      ensures types[4].BaseType? && sp.Denotes(types[4].name, "f64")
      ensures types[5].BaseType? && sp.Denotes(types[5].name, "any")
    {
      var dynamicName, i64Name, u64Name, f64Name, anyName := InternBaseNames(sp);
      layouts := [[]];
      types := [TupleType(0), BaseType(false, dynamicName), BaseType(false, i64Name), BaseType(false, u64Name),
                BaseType(false, f64Name), BaseType(true, anyName)];
      seeds := types;
      arrayType := map[];
      tupleType := map[];
    }

    /** The five `take` calls of the constructor, in order. */
    static method InternBaseNames(sp: StringPool) returns (dynamicName: StringToken, i64Name: StringToken,
                                                           u64Name: StringToken, f64Name: StringToken, anyName: StringToken)
      requires sp.Valid()
      modifies sp
      ensures sp.Valid()
      ensures sp.Denotes(dynamicName, "dynamic") && sp.Denotes(i64Name, "i64") && sp.Denotes(u64Name, "u64")
      ensures sp.Denotes(f64Name, "f64") && sp.Denotes(anyName, "any")
    {
      dynamicName := sp.Take("dynamic");
      i64Name := sp.Take("i64");
      u64Name := sp.Take("u64");
      f64Name := sp.Take("f64");
      anyName := sp.Take("any");
    }

    /** `getType(t)`: the type at token `t`; the seeded tokens keep their types. */
    function GetType(t: TypeToken): (r: Type)
      reads this
      requires Valid() && t < |types|
      ensures r == types[t]
      ensures t == 0 ==> r == TupleType(0)
      ensures 1 <= t <= 4 ==> r.BaseType? && !r.isClass
      ensures t == 5 ==> r.BaseType? && r.isClass
    {
      assert t < 6 ==> types[t] == seeds[t];
      types[t]
    }

    /**
     * `arrayTypeOf(base)`: the memoised dynamic-array type of `base`; on a
     * miss one array type is appended and its token, the last one, stored.
     */
    method ArrayTypeOf(base: TypeToken) returns (t: TypeToken)
      requires Valid()
      modifies this
      ensures Valid()
      ensures (t, arrayType) == FindCached(old(arrayType), base, |old(types)|)
      ensures t < |types| && types[t] == ArrayType([], base)
      ensures base in old(arrayType) ==> types == old(types)
      ensures base !in old(arrayType) ==> types == old(types) + [ArrayType([], base)] && t == |types| - 1
      ensures layouts == old(layouts) && tupleType == old(tupleType)
    {
      if base !in arrayType {
        types := types + [ArrayType([], base)];
        arrayType := arrayType[base := |types| - 1];
      }
      t := arrayType[base];
    }

    /**
     * `tupleTypeOf(members)`: memoised by member list, but the miss callback
     * appends nothing and answers the token of the last type.
     */
    method TupleTypeOf(members: seq<TypeToken>) returns (t: TypeToken)
      requires Valid()
      modifies this
      ensures Valid()
      ensures (t, tupleType) == FindCached(old(tupleType), members, |old(types)| - 1)
      ensures t < |types|
      ensures types == old(types) && layouts == old(layouts) && arrayType == old(arrayType)
    {
      if members !in tupleType {
        tupleType := tupleType[members := |types| - 1];
      }
      t := tupleType[members];
    }
  }
}

=== FILE: vm_memory.dfy ===
/**
 * The earlier, non-moving variant of the memory manager (src/vm/mem.hpp).
 *
 * It shares the object header, the raw memory and the read barrier with the
 * collector of src/gc/mem.hpp, and differs in three places: `getMemType`
 * answers `Unmanaged` instead of failing for an address no table knows, the
 * write barrier records a slot only when the destination is an elder region
 * (`Major`, `Static` or `Huge`), and the collector entry point does nothing.
 */
module VmMemory {
  import opened Wrappers
  import opened ObjectHeader
  import opened HeapLayout
  import GcMemory

  /**
   * `getMemType(ptr)`: the page table's entry for the page of `ptr`; failing
   * that, `Huge` when `ptr` lies inside the huge object with the largest base
   * not above it; failing that, `Unmanaged`.
   */
  function GetMemType(pages: map<nat, MemType>, huge: set<nat>, headers: map<nat, ObjHeader>,
                      objSize: nat -> nat, ptr: nat): (r: MemType)
    requires huge <= headers.Keys
    ensures PageId(ptr) in pages ==> r == pages[PageId(ptr)]
    ensures PageId(ptr) !in pages ==>
      (r == Huge <==> exists b :: b in huge && HugeFloor(huge, ptr) == Some(b) && ptr < b + SizeBytes(headers[b], objSize))
    ensures PageId(ptr) !in pages ==> r == Huge || r == Unmanaged
  {
    LookupRegion(pages, huge, headers, objSize, ptr).GetOr(Unmanaged)
  }

  /**
   * Where the collector's `getMemType` finds a region the variant finds the
   * same one; where the collector's assertion fails the variant answers
   * `Unmanaged`.
   */
  lemma GetMemTypeAgreesWithCollector(pages: map<nat, MemType>, huge: set<nat>, headers: map<nat, ObjHeader>,
                                      objSize: nat -> nat, ptr: nat)
    requires huge <= headers.Keys
    ensures var found := LookupRegion(pages, huge, headers, objSize, ptr);
      found.Some? ==> GetMemType(pages, huge, headers, objSize, ptr) == found.value
    ensures LookupRegion(pages, huge, headers, objSize, ptr).None? ==>
      GetMemType(pages, huge, headers, objSize, ptr) == Unmanaged
  {
  }

  /** The variant's barrier condition: a young `src` stored into a slot of an elder region. */
  predicate VmBarrierRecords(pages: map<nat, MemType>, huge: set<nat>, headers: map<nat, ObjHeader>,
                             objSize: nat -> nat, dst: nat, src: nat)
    requires huge <= headers.Keys
  {
    && src != 0
    && GetMemType(pages, huge, headers, objSize, src) == Minor
    && GetMemType(pages, huge, headers, objSize, dst) in {Major, Static, Huge}
  }

  /** The card table after the variant's `writeWithBarrier(dst, src)`. */
  function VmRecordStore(card: set<nat>, pages: map<nat, MemType>, huge: set<nat>, headers: map<nat, ObjHeader>,
                         objSize: nat -> nat, dst: nat, src: nat): (r: set<nat>)
    requires huge <= headers.Keys
    ensures card <= r && r - card <= {dst}
    ensures dst in r <==> dst in card || VmBarrierRecords(pages, huge, headers, objSize, dst, src)
  {
    if VmBarrierRecords(pages, huge, headers, objSize, dst, src) then card + {dst} else card
  }

  /** Storing to the same slot again adds nothing: the card table is a set of addresses. */
  lemma VmRecordStoreIdempotent(card: set<nat>, pages: map<nat, MemType>, huge: set<nat>,
                                headers: map<nat, ObjHeader>, objSize: nat -> nat, dst: nat, src: nat, once: set<nat>)
    requires huge <= headers.Keys
    requires once == VmRecordStore(card, pages, huge, headers, objSize, dst, src)
    ensures VmRecordStore(once, pages, huge, headers, objSize, dst, src) == once
  {
  }

  /**
   * The variant records exactly the stores the collector's barrier records
   * whose destination lies in memory some table knows: an `Unmanaged`
   * destination is the one difference.
   */
  lemma VmBarrierIffCollectorBarrier(pages: map<nat, MemType>, huge: set<nat>, headers: map<nat, ObjHeader>,
                                     objSize: nat -> nat, dst: nat, src: nat)
    requires huge <= headers.Keys
    ensures VmBarrierRecords(pages, huge, headers, objSize, dst, src) <==>
      GcMemory.BarrierRecords(pages, dst, src) && GetMemType(pages, huge, headers, objSize, dst) != Unmanaged
  {
    MinorPageIffLookupMinor(pages, huge, headers, objSize, src);
    MinorPageIffLookupMinor(pages, huge, headers, objSize, dst);
  }

  /** A young object stored into an unmapped slot: the collector records it, the variant does not. */
  lemma VmBarrierSkipsUnmanagedDestination()
    ensures var pages := map[PageSize := Minor];
      var dst := 3 * PageSize;
      var src := PageSize + WordSize;
      GcMemory.BarrierRecords(pages, dst, src) && !VmBarrierRecords(pages, {}, map[], n => 0, dst, src)
  {
    var pages := map[PageSize := Minor];
    assert PageId(3 * PageSize) == 3 * PageSize;
    assert PageId(PageSize + WordSize) == PageSize;
    assert GetMemType(pages, {}, map[], n => 0, 3 * PageSize) == Unmanaged;
  }

  /** `Memory` of src/vm/mem.hpp. */
  class VmMemory {
    var stage: Stage
    /** `pageMemType`: region of each page, keyed by page id (the page's base address). */
    var pageMemType: map<nat, MemType>
    /** `hugeMemType`: base addresses of huge objects. */
    var hugeMemType: set<nat>
    var mem: RawMemory
    var cardTable: set<nat>
    var root: seq<nat>
    const objSize: nat -> nat

    ghost predicate Valid()
      reads this
    {
      && WellFormed(mem, objSize)
      && hugeMemType <= mem.headers.Keys
      && cardTable <= mem.words.Keys
    }

    constructor (objSize: nat -> nat)
      ensures Valid() && stage == Normal
      ensures pageMemType == map[] && hugeMemType == {} && mem == RawMemory(map[], map[], PageSize)
      ensures cardTable == {} && root == [] && this.objSize == objSize
    {
      stage := Normal;
      pageMemType := map[];
      hugeMemType := {};
      mem := RawMemory(map[], map[], PageSize);
      cardTable := {};
      root := [];
      this.objSize := objSize;
    }

    /**
     * `allocHeap(h)`: `Major` for a header with a finalizer, a big object or a
     * payload of a page or more, `Minor` otherwise. Both `allocMajor` and
     * `allocMinor` are stubs, so the pointer returned is null either way.
     */
    method AllocHeap(h: ObjHeader) returns (p: nat, region: MemType)
      ensures region == Major <==> HasFlag(h, HasFinalizer) || IsBigObject(h) || SizeBytes(h, objSize) >= PageSize
      ensures region == Minor || region == Major
      ensures region == GcMemory.AllocRegion(h, objSize)
      ensures p == 0
    {
      if HasFlag(h, HasFinalizer) || h.sizeCompressed == BigObjectSize || SizeBytes(h, objSize) >= PageSize {
        region := Major;
      } else {
        region := Minor;
      }
      p := 0;
    }

    /**
     * `writeWithBarrier(dst, src)`: always stores `src`; records `dst` when
     * `src` is young and `dst` lies in an elder region.
     */
    method WriteWithBarrier(dst: nat, src: nat)
      requires Valid() && dst in mem.words && (src == 0 || src in mem.headers)
      modifies this
      ensures Valid()
      ensures mem == old(mem).(words := old(mem.words)[dst := src])
      ensures cardTable == VmRecordStore(old(cardTable), pageMemType, hugeMemType, old(mem.headers), objSize, dst, src)
      ensures src == 0 ==> cardTable == old(cardTable)
      ensures stage == old(stage) && pageMemType == old(pageMemType) && hugeMemType == old(hugeMemType)
      ensures root == old(root)
    {
      StoreKeepsWellFormed(mem, dst, src, objSize);
      if src == 0 {
        mem := mem.(words := mem.words[dst := src]);
        return;
      }
      if GetMemType(pageMemType, hugeMemType, mem.headers, objSize, src) == Minor {
        var dstMemType := GetMemType(pageMemType, hugeMemType, mem.headers, objSize, dst);
        if dstMemType == Major || dstMemType == Static || dstMemType == Huge {
          PostWrite(dst);
        }
      }
      mem := mem.(words := mem.words[dst := src]);
    }

    /** `postWrite(dst, src)`: adds `dst` to the card table. */
    method PostWrite(dst: nat)
      requires Valid() && dst in mem.words
      modifies this
      ensures Valid() && cardTable == old(cardTable) + {dst}
      ensures stage == old(stage) && pageMemType == old(pageMemType) && hugeMemType == old(hugeMemType)
      ensures mem == old(mem) && root == old(root)
    {
      cardTable := cardTable + {dst};
    }

    /**
     * `readWithBarrier(src)`: outside a minor collection the slot's value;
     * during one, a moved target is replaced in the slot by its forwarding
     * word, which is returned.
     */
    method ReadWithBarrier(src: nat) returns (r: nat)
      requires Valid() && src in mem.words
      modifies this
      ensures Valid()
      ensures r == ReadBarrier(old(stage), old(mem), objSize, src)
      ensures old(stage) != MinorGC ==> r == old(mem.words)[src] && mem == old(mem)
      ensures mem == old(mem).(words := old(mem.words)[src := r])
      ensures stage == old(stage) && pageMemType == old(pageMemType) && hugeMemType == old(hugeMemType)
      ensures cardTable == old(cardTable) && root == old(root)
    {
      r := mem.words[src];
      if stage != MinorGC || r == 0 {
        assert mem.words[src := r] == mem.words;
        return;
      }
      if HasFlag(mem.headers[r], IsMoved) {
        WordZeroExists(mem, r, objSize);
        r := mem.words[r];
        StoreKeepsWellFormed(mem, src, r, objSize);
        mem := mem.(words := mem.words[src := r]);
      } else {
        assert mem.words[src := r] == mem.words;
      }
    }

    /** `singleThreadGc`: both branches are empty, so it never finishes and changes nothing. */
    method SingleThreadGc() returns (finished: bool)
      ensures !finished
    {
      finished := false;
    }
  }
}

=== FILE: wrappers.dfy ===
/** Option datatype shared by the modules of this model. */
module Wrappers {

  datatype Option<+T> = None | Some(value: T) {

    /** The wrapped value, or `default` when there is none. */
    function GetOr(default: T): T {
      match this
      case Some(v) => v
      case None => default
    }
  }
}
